=== FILE: README.md ===
# Logo evaluation app: record store, grade extractor and analysis renderer

A Dafny model of the logic inside a small browser app that grades students'
logo designs. A teacher enters a student's name and class group ("paralelo")
and picks an image. An AI service returns a Markdown analysis that ends with
a line "CALIFICACIÓN FINAL: nn/100". The app then does four things:

- it extracts the grade from that text;
- it saves an evaluation record to browser storage;
- it shows the analysis, rendering the Markdown line by line;
- it lists the saved records, each of which can be downloaded as a plain-text report or deleted.

The model is split into these modules:

- `Wrappers`: `Option` and `Result`.
- `Types`: the `EvaluationRecord` entity and the caller-supplied `Draft`.
- `JsString`: the JavaScript string built-ins the app relies on, modelled on `seq<char>`:
  - `trim` and the `\s` character class (both use the same white-space set);
  - `startsWith`, `includes` and `indexOf`;
  - `split` with a string separator;
  - `replace` with a string pattern.
- `StorageService` (services/storageService.ts):
  - the stored record sequence, with `getEvaluations`, `saveEvaluation` and `deleteEvaluation`;
  - an `EvaluationStore` class that holds the slot;
  - `generateReportContent`.
- `GradeExtractor` (App.tsx `extractGrade`): the regular expression `/CALIFICACIÓN FINAL:\s*(\d{1,3}\/100)/i` is defined twice:
  - by what it matches (`MatchesAt`);
  - as a hand-written scanner (`ScanAt`).

  The two are proved equal. `ExtractGrade` returns the token at the leftmost match, or "Pendiente".
- `App` (App.tsx), covering:
  - `handleAnalyze` and `handleDelete` as transitions of the component state plus the storage slot;
  - the download file name;
  - the red-badge test of the records table.
- `AnalysisDisplay` (components/AnalysisDisplay.tsx): `renderContent` as a function from the analysis text to one `Block` per line. The blocks are:
  - level-2 and level-3 headings;
  - an emphasised paragraph of plain and bold segments;
  - a bullet;
  - a numbered item;
  - a spacer;
  - a paragraph.

Things the program takes from its surroundings become parameters:

- the generated id and the clock reading;
- the locale-formatted date string;
- the answer to the confirmation dialog;
- the analysis service's text, or the message of its exception.

Browser storage is modelled as the value it holds (`Slot`). Serialising a
record sequence and parsing it back is the identity on that sequence. Text
the JSON parser rejects is a separate case.

## Model

| member | source | states |
|---|---|---|
| `StorageService.GetEvaluations` | services/storageService.ts:19-22 | nothing stored, or the empty string, reads as no records; stored records read back as they are; corrupt text makes the read fail with the parser's message, and only then |
| `StorageService.NewRecord` | services/storageService.ts:8-12 | the new record carries the caller's four fields unchanged plus the supplied id and timestamp |
| `StorageService.SaveEvaluation` | services/storageService.ts:5-17 | fails exactly when the read fails, before anything is written; otherwise it returns the new record and writes it as the head of the previous records, so the length grows by one and the old records keep their order |
| `StorageService.Without` | services/storageService.ts:26 | the filter keeps exactly the records whose id differs, so no record with the id is left and nothing is added |
| `StorageService.DeleteEvaluation` | services/storageService.ts:24-29 | fails exactly when the read fails; otherwise the value written equals the value returned, it holds no record with the id, it holds every stored record with another id as often as it was stored, and it keeps them in their stored order |
| `StorageService.WithoutKeepsCopies` | services/storageService.ts:26 | the filter keeps every copy of a record with another id and no copy of a record with the id |
| `StorageService.WithoutAppend` | services/storageService.ts:26 | filtering distributes over concatenation |
| `StorageService.WithoutIsSubsequence` | services/storageService.ts:26 | the records kept are a subsequence of those read: relative order is preserved |
| `StorageService.WithoutAbsentId` | services/storageService.ts:26 | deleting an id no record carries leaves the sequence unchanged |
| `StorageService.WithoutIdempotent` | services/storageService.ts:26 | deleting the same id twice equals deleting it once |
| `StorageService.DeletePresentIdRemovesOne` | services/storageService.ts:26 | with distinct ids, deleting a present id shortens the sequence by exactly one |
| `StorageService.DeleteKeepsDistinctIds` | services/storageService.ts:26 | pairwise-distinct ids stay distinct after a delete |
| `StorageService.SaveKeepsDistinctIds` | services/storageService.ts:10-15 | pairwise-distinct ids stay distinct after a save under a fresh id |
| `StorageService.SaveThenDeleteRestores` | services/storageService.ts:14-27 | saving under a fresh id and then deleting that id writes back exactly the records stored before |
| `StorageService.ReadAfterWrite` | services/storageService.ts:14-27 | the read after a save returns the new record in front of the records read before it; the read after a delete returns what the delete returned |
| `StorageService.Repeat` | services/storageService.ts:41 | `n` copies of one character; the banner rule is `Repeat('=', 48)`, 48 equals signs |
| `StorageService.ReportSplit` | services/storageService.ts:40-60 | the trimmed report is the fixed head followed by the analysis text, minus its trailing white space, after one blank line; an all-white-space analysis trims away together with that blank line |
| `StorageService.TemplateSplit` | services/storageService.ts:40-60 | the same decomposition for any head whose first and last characters are not white space |
| `StorageService.ReportFieldsInOrder` | services/storageService.ts:40-60 | the report contains, in this order and without overlap: the title, `Nombre:   <name>`, `Paralelo: <parallel>`, `Fecha:    <date>`, `Calificación: <grade>`, then the analysis text less its trailing white space |
| `StorageService.InOrderAppend` | services/storageService.ts:40-60 | parts in order in one text, followed by parts in order in the next, are in order in the concatenation |
| `StorageService.GenerateReportContent` | services/storageService.ts:31-61 | the report starts with the rule line and the title, so its first character is '=', and its last character is not white space |
| `GradeExtractor.ScanAt` | App.tsx:45 | a token the scanner finds is 1 to 3 ASCII digits followed by "/100", and the regular expression matches at that index with that capture: the label, a white-space run, then the token |
| `GradeExtractor.ScanAtIsRegexMatch` | App.tsx:45 | at every index, the scanner finds a token exactly when the regular expression (label with case folding, `\s*`, `\d{1,3}`, "/100") matches there with that capture |
| `GradeExtractor.ScanAtComplete` | App.tsx:45 | every regular-expression match at an index is found by the scanner: backtracking into the white-space or digit run can never help |
| `GradeExtractor.MatchAtIsUnique` | App.tsx:45 | the expression captures at most one token at a given index |
| `GradeExtractor.FirstMatchFrom` | App.tsx:46 | the index the search returns is at or after its start, and the scanner finds the returned token there |
| `GradeExtractor.FirstMatchIsLeftmost` | App.tsx:46 | the search from an index skips no index where the scanner finds a token |
| `GradeExtractor.ExtractGrade` | App.tsx:44-48 | the result is "Pendiente" or a grade token; it is "Pendiente" exactly when no index matches; otherwise it is the token at an index before which nothing matches |
| `GradeExtractor.ExtractGradeIsLeftmostMatch` | App.tsx:44-48 | the same, stated with the regular expression's own match relation: "Pendiente" when it matches nowhere, otherwise the capture of the leftmost match |
| `GradeExtractor.FourDigitsNoMatch` | App.tsx:45 | four or more digits after the label and its white space defeat the match at that occurrence |
| `GradeExtractor.NoRightAnchor` | App.tsx:45 | a match stays a match whatever text follows the token |
| `GradeExtractor.GradeAfterFirstLabel` | App.tsx:44-48 | the label in any letter case, then any white-space run (line breaks included), then 1 to 3 digits and "/100", with no label-start character before it, yields that token |
| `GradeExtractor.ExampleUpperCase` | App.tsx:45-47 | "...\nCALIFICACIÓN FINAL: 85/100\n" yields "85/100" |
| `GradeExtractor.ExampleLowerCase` | App.tsx:45-47 | a lower-case label, "calificación final: 7/100", yields "7/100" |
| `GradeExtractor.ExampleTrailingDigit` | App.tsx:45 | "CALIFICACIÓN FINAL: 85/1000" yields "85/100", because there is no right anchor |
| `GradeExtractor.ExampleLineBreaks` | App.tsx:45 | a line break and a tab between the colon and the digits are allowed |
| `GradeExtractor.ExampleNoGrade` | App.tsx:47 | a text without the label yields "Pendiente" |
| `App.ErrorText` | App.tsx:82 | the error shown is the exception's message, or the generic message when that is empty; it is never empty |
| `App.IsBlank` | App.tsx:52 | a name or parallel counts as missing exactly when it is all white space |
| `App.Mount` | App.tsx:11-27 | mounting keeps the given slot as the store and shows its records (none for an absent or blank slot) with an empty form, no file, no result, the idle status and no error; it fails exactly when the stored text is corrupt |
| `App.HandleAnalyze` | App.tsx:50-85 | without a file, nothing changes. With a blank name or parallel (blank after trimming), only the validation error is set. A failed analysis sets the Failed status and its message and leaves the result, the table and the store alone. A successful analysis shows the text; it is saved under the extracted grade and prepended to the table, unless the save throws, in which case the status is Failed with the save's message and the table and store are left alone. In every outcome the fields the handler does not set keep their values |
| `App.HandleDelete` | App.tsx:99-104 | without confirmation, or when the read throws, nothing changes; otherwise the table and the store both hold the remaining records in their stored order, each as often as it was stored, none of which carries the id, and nothing else changes |
| `App.AnalyzeKeepsSynced` | App.tsx:71-79 | when the table shows what the store holds, it still does after an analysis, whatever the outcome |
| `App.DeleteKeepsSynced` | App.tsx:100-102 | the same after a delete |
| `App.SyncedAnalyzeSaves` | App.tsx:66-79 | with the table in step with the store, a valid submission whose analysis succeeds is saved, with the extracted grade |
| `App.AnalyzeSavesOnlyOnSuccess` | App.tsx:51-79 | the store and the table change only when a file is selected, both fields are filled in and the analysis succeeded |
| `App.HandlersKeepDistinctIds` | App.tsx:79 | pairwise-distinct ids in the table survive an analysis with a fresh id, and any delete |
| `App.CollapseWhite` | App.tsx:93 | replacing each white-space run by '_' leaves no white space and never lengthens the name |
| `App.CollapseKeepsPlainName` | App.tsx:93 | a name without white space is used as it is |
| `App.CollapseIdempotent` | App.tsx:93 | collapsing twice equals collapsing once |
| `App.CollapseRun` | App.tsx:93 | a non-empty white-space run between two words becomes exactly one '_', whatever its length or kind |
| `App.DownloadName` | App.tsx:93 | the file name is "Evaluacion_", then the collapsed name (which holds no white space), then '_', the parallel verbatim and ".txt" |
| `App.IsHighlighted` | App.tsx:308 | the badge is red exactly when the grade contains "0/100": the "10/100" test adds nothing |
| `App.HighlightOfToken` | App.tsx:308 | for an extracted grade, the badge is red exactly when the score's last digit is 0 |
| `App.ExampleHighlights` | App.tsx:308 | "100/100" and "90/100" are highlighted; "85/100" is not |
| `App.PendingNotHighlighted` | App.tsx:308 | the fallback "Pendiente" is not highlighted |
| `AnalysisDisplay.RenderContent` | components/AnalysisDisplay.tsx:12-14 | one block per '\n'-separated line (line feeds plus one), in input order, each the classification of its line |
| `AnalysisDisplay.SingleLine` | components/AnalysisDisplay.tsx:13-14 | a text without a line feed renders as the one block of that line |
| `AnalysisDisplay.Classify` | components/AnalysisDisplay.tsx:14-60 | no block invents text: a heading, bullet, numbered item or paragraph shows a tail of its line, an emphasised line's segments rejoin with "**" to the line, and a spacer line is all white space |
| `AnalysisDisplay.ClassifyUnheaded` | components/AnalysisDisplay.tsx:23-60 | past the heading tests a line is never a heading, and it is emphasised exactly when it contains "**"; its segments then carry exactly the pieces `split('**')` yields, which rejoin to the line |
| `AnalysisDisplay.ClassifyPlain` | components/AnalysisDisplay.tsx:36-60 | past the emphasis test a line is a bullet, numbered item, spacer or paragraph; it is a spacer exactly when it is all white space, and the text shown is a tail of the line |
| `AnalysisDisplay.Heading2Rule` | components/AnalysisDisplay.tsx:16-17 | a line is a level-2 heading exactly when it starts with "## ", and the heading shows the line without that prefix |
| `AnalysisDisplay.Heading3Rule` | components/AnalysisDisplay.tsx:19-20 | a line is a level-3 heading exactly when it starts with "### " (never a level-2 heading), showing the line without that prefix |
| `AnalysisDisplay.EmphasisRule` | components/AnalysisDisplay.tsx:24-34 | a non-heading line is emphasised exactly when it contains "**"; it then has at least two segments, their texts are exactly the pieces `split('**')` yields (each cut at the leftmost remaining "**"), the odd-numbered ones are bold, and joining the segments with "**" gives back the line |
| `AnalysisDisplay.TwoMarkers` | components/AnalysisDisplay.tsx:24-34 | "a**b**c" with no '*' in a, b or c shows a plain, b bold and c plain |
| `AnalysisDisplay.EmphasisBeforeBullet` | components/AnalysisDisplay.tsx:24-41 | a bullet-looking line that contains "**" is shown as an emphasised paragraph, not a bullet |
| `AnalysisDisplay.BulletRule` | components/AnalysisDisplay.tsx:37 | a line is a bullet exactly when it is no heading, holds no "**" and its trimmed form starts with "- " or "* " |
| `AnalysisDisplay.StripBulletMarker` | components/AnalysisDisplay.tsx:41 | `/^[-*]\s/` leaves a tail of the line; it removes exactly two characters from its front, and does so exactly when the line starts with '-' or '*' followed by a white-space character |
| `AnalysisDisplay.BulletText` | components/AnalysisDisplay.tsx:37-41 | a rendered bullet shows its line without the marker and the character after it when the marker is in column 0, and the whole line when the bullet is indented |
| `AnalysisDisplay.BulletHasContent` | components/AnalysisDisplay.tsx:37 | a bullet's trimmed line is longer than its marker and space |
| `AnalysisDisplay.ExampleBareDash` | components/AnalysisDisplay.tsx:37-60 | the line "- " is shown as a paragraph holding "- " |
| `AnalysisDisplay.BareMarker` | components/AnalysisDisplay.tsx:37-60 | a marker followed only by white space, as in "- ", is no bullet: the trim removes the space, so the line is a paragraph |
| `AnalysisDisplay.NumberedRule` | components/AnalysisDisplay.tsx:47 | a line is numbered exactly when no earlier rule takes it and its trimmed form starts with digits and a full stop |
| `AnalysisDisplay.NumberedMarker` | components/AnalysisDisplay.tsx:47-50 | the marker is taken from the untrimmed line, so a rendered numbered item shows its number exactly when it is not indented |
| `AnalysisDisplay.NumberMarker` | components/AnalysisDisplay.tsx:50 | the untrimmed line has a marker exactly when it starts with digits and a full stop, and the marker is those digits and that full stop |
| `AnalysisDisplay.StripNumber` | components/AnalysisDisplay.tsx:51 | `/^\d+\.\s/` leaves a tail of the line; what it removes is digits, a full stop and one white-space character, and it removes them whenever the line starts that way |
| `AnalysisDisplay.NumberedItem` | components/AnalysisDisplay.tsx:47-51 | "digits. text" in column 0 shows the digits and full stop as its marker, and the text after the separating white-space character |
| `AnalysisDisplay.IndentedNumbered` | components/AnalysisDisplay.tsx:47-51 | an indented numbered item has no marker and keeps its whole line as text |
| `AnalysisDisplay.SpacerRule` | components/AnalysisDisplay.tsx:57 | a line is a spacer exactly when it is all white space, the empty line included |
| `AnalysisDisplay.ParagraphRule` | components/AnalysisDisplay.tsx:60 | a line is a paragraph exactly when no other rule applies, and the paragraph shows the line verbatim |
| `AnalysisDisplay.OrdinaryLine` | components/AnalysisDisplay.tsx:60 | a line that is no heading, holds no "**", and starts and ends with an ordinary character is a paragraph |
| `AnalysisDisplay.ExampleSingleHash` | components/AnalysisDisplay.tsx:16-20 | a single-'#' heading such as "# Título" is a plain paragraph |
| `AnalysisDisplay.ExampleNumbered` | components/AnalysisDisplay.tsx:47-51 | "1. Uno" shows the marker "1." and the text "Uno" |
| `JsString.Split` | components/AnalysisDisplay.tsx:24 | `split` on a string separator gives at least one piece; the pieces rejoin to the input and hold no separator; there is more than one piece exactly when the separator occurs, and then the first piece ends where the separator first occurs |
| `JsString.SplitCutsLeftmost` | components/AnalysisDisplay.tsx:13-24 | every cut is at the leftmost occurrence of the separator in what remains: in each piece followed by the separator, the separator first occurs right after the piece |
| `JsString.SplitCharCount` | components/AnalysisDisplay.tsx:13 | splitting on a one-character separator gives one more piece than the separator occurs |
| `JsString.ReplaceFirst` | components/AnalysisDisplay.tsx:17 | `replace` with a string pattern leaves a string without the pattern unchanged, and replaces a leading occurrence by the replacement |
| `JsString.IndexOf` | components/AnalysisDisplay.tsx:17 | the index found is the first occurrence; there is none exactly when the string does not contain the pattern |
| `JsString.TrimEndsNotWhite` | App.tsx:52 | a trimmed string is empty, or starts and ends with a non-white-space character |
| `JsString.BlankIffAllWhite` | App.tsx:52 | a string trims to the empty string exactly when it is all white space |

## Left out

- Browser storage and JSON are modelled by the value the key holds. The quota error `setItem` can throw is not modelled: a save or delete whose read succeeds always writes.
- `Slot`: stored text that is valid JSON but not a record array (`null`, `{}`, a string, a number) is not a case of the model. `getEvaluations` returns such a value as it is; `saveEvaluation` then throws a TypeError for a non-iterable value or spreads a string's characters into the array, and `deleteEvaluation` throws because the value has no `filter`. The app never writes such text itself.
- Stored text the JSON parser rejects makes `getEvaluations` throw, and the throw propagates out of save, delete, mount and `handleDelete`; `handleAnalyze` catches it (App.tsx:81-84) and shows its message, as `HandleAnalyze` states. The code does not otherwise recover from corrupt data, so the model does not either.
- `crypto.randomUUID`, `Date.now`, the `toLocaleDateString('es-BO', …)` formatting and `window.confirm` are parameters.
- The analysis service call, its prompt and `fileToBase64` are not modelled. `HandleAnalyze` takes their outcome as a parameter.
- `HandleAnalyze`: it describes the handler run to completion. The intermediate `ANALYZING` status, set while the service call is awaited, is not a state of the model.
- `HandleDelete`: an exception from `deleteEvaluation` escapes the handler before any state is set, so the model leaves the state unchanged. The uncaught exception thrown from the event handler is not modelled.
- The button's `disabled` condition (App.tsx:192), `handleFileSelect` and `handleClear` are left out. They are rendering and form plumbing, not part of the modelled handlers.
- The Blob/anchor download (App.tsx:88-96) and all JSX and class names are not modelled; only the file name and the report text are.
- Strings are sequences of Unicode scalar values, not UTF-16 code units. All characters the app's literals use are in the Basic Multilingual Plane, where the two agree.
- `StorageService.EvaluationStore`: the class wrapper states, for a mutable holder of the slot, what the pure functions state (the record `Save` returns is the draft with the supplied id and timestamp, put in front of the stored records; `Delete` writes what `Without` keeps). Its contracts use `old` and `modifies`, so they are stated for the class but not listed in the table above.

=== FILE: analysis_display.dfy ===
/** The line classifier behind the analysis view
    (components/AnalysisDisplay.tsx, `renderContent`): the text is split
    on line feeds and every line becomes exactly one block, chosen by a
    fixed precedence. The rendered markup is not modelled; a block keeps
    only its kind and the text it would show. */
module AnalysisDisplay {
  import opened Wrappers
  import opened JsString

  /** A piece of a line split on "**"; pieces at odd positions are bold. */
  datatype Segment = Plain(text: string) | Strong(text: string)

  datatype Block =
    | Heading2(text: string)
    | Heading3(text: string)
    | Emphasised(segments: seq<Segment>)
    | Bullet(text: string)
    | Numbered(marker: Option<string>, text: string)
    | Spacer
    | Paragraph(text: string)

  const H2Prefix: string := "## "
  const H3Prefix: string := "### "
  const BoldMarker: string := "**"

  /** The pieces of a line split on "**", every second one bold. */
  function Segments(parts: seq<string>): (segs: seq<Segment>)
    ensures |segs| == |parts|
    ensures forall i :: 0 <= i < |parts| ==> segs[i].text == parts[i]
  {
    seq(|parts|, i requires 0 <= i < |parts| =>
      if i % 2 == 1 then Strong(parts[i]) else Plain(parts[i]))
  }

  /** The texts of the segments, in order. */
  function SegmentTexts(segs: seq<Segment>): (texts: seq<string>)
    ensures |texts| == |segs|
  {
    seq(|segs|, i requires 0 <= i < |segs| => segs[i].text)
  }

  /** `line.trim().startsWith('- ') || line.trim().startsWith('* ')`. */
  predicate IsBulletLine(line: string) {
    StartsWith(Trim(line), "- ") || StartsWith(Trim(line), "* ")
  }

  /** `line.replace(/^[-*]\s/, '')`: a marker and one whitespace
      character are removed only at the very start of the line. */
  function StripBulletMarker(line: string): (r: string)
    ensures EndsWith(line, r)
    ensures r != line ==> |line| - |r| == 2 && (line[0] == '-' || line[0] == '*') && IsWhite(line[1])
    ensures |line| >= 2 && (line[0] == '-' || line[0] == '*') && IsWhite(line[1]) ==> r != line
  {
    if |line| >= 2 && (line[0] == '-' || line[0] == '*') && IsWhite(line[1]) then line[2..]
    else line
  }

  /** `/^\d+\./.test(s)`: digits, then a full stop. Since a full stop is
      not a digit, only the whole leading digit run can be followed by it. */
  predicate StartsNumbered(s: string) {
    var d := DigitRun(s, 0);
    1 <= d < |s| && s[d] == '.'
  }

  /** `line.match(/^\d+\./)?.[0]`, taken from the untrimmed line: when
      there is a marker, it is the digits and the full stop that start
      the line. */
  function NumberMarker(line: string): (r: Option<string>)
    ensures r.Some? <==> StartsNumbered(line)
    ensures r.Some? ==> var m := r.value;
      && |m| >= 2 && StartsWith(line, m)
      && AllDigits(m[..|m| - 1]) && m[|m| - 1] == '.'
  {
    if StartsNumbered(line) then
      var d := DigitRun(line, 0);
      assert line[..d + 1][..d] == line[0..d];
      Some(line[..d + 1])
    else None
  }

  /** `line.replace(/^\d+\.\s/, '')`: digits, a full stop and one
      whitespace character are removed only at the very start of the
      line. */
  function StripNumber(line: string): (r: string)
    ensures EndsWith(line, r)
    ensures r != line ==> var d := |line| - |r| - 2;
      && 1 <= d && AllDigits(line[..d]) && line[d] == '.' && IsWhite(line[d + 1])
    ensures var d := DigitRun(line, 0);
      StartsNumbered(line) && d + 1 < |line| && IsWhite(line[d + 1]) ==> r != line
  {
    var d := DigitRun(line, 0);
    if StartsNumbered(line) && d + 1 < |line| && IsWhite(line[d + 1]) then
      assert line[..d] == line[0..d];
      line[d + 2..]
    else line
  }

  /** The block one line becomes: headings first, then emphasis, then the
      remaining kinds. */
  function Classify(line: string): (b: Block)
    // no block invents text: what a block shows is a tail of its line,
    // or for emphasis the pieces of the line itself
    ensures b.Heading2? || b.Heading3? || b.Bullet? || b.Numbered? || b.Paragraph? ==>
      EndsWith(line, b.text)
    ensures b.Emphasised? ==>
      |b.segments| >= 2 && Join(SegmentTexts(b.segments), BoldMarker) == line
    ensures b.Spacer? ==> AllWhite(line)
  {
    if StartsWith(line, H2Prefix) then Heading2(ReplaceFirst(line, H2Prefix, ""))
    else if StartsWith(line, H3Prefix) then Heading3(ReplaceFirst(line, H3Prefix, ""))
    else ClassifyUnheaded(line)
  }

  /** A line that is not a heading: emphasised when splitting on "**"
      gives more than one piece. */
  function ClassifyUnheaded(line: string): (b: Block)
    ensures !b.Heading2? && !b.Heading3?
    ensures b.Emphasised? <==> Contains(line, BoldMarker)
    ensures b.Emphasised? ==>
      && |b.segments| >= 2
      && SegmentTexts(b.segments) == Split(line, BoldMarker)
      && Join(SegmentTexts(b.segments), BoldMarker) == line
  {
    var parts := Split(line, BoldMarker);
    if |parts| > 1 then
      assert SegmentTexts(Segments(parts)) == parts;
      Emphasised(Segments(parts))
    else ClassifyPlain(line)
  }

  /** A line that is neither a heading nor emphasised. */
  function ClassifyPlain(line: string): (b: Block)
    ensures !b.Heading2? && !b.Heading3? && !b.Emphasised?
    ensures b == Spacer <==> AllWhite(line)
    ensures b.Bullet? || b.Numbered? || b.Paragraph? ==> EndsWith(line, b.text)
  {
    BlankIffAllWhite(line);
    if IsBulletLine(line) then Bullet(StripBulletMarker(line))
    else if StartsNumbered(Trim(line)) then Numbered(NumberMarker(line), StripNumber(line))
    else if Trim(line) == [] then Spacer
    else Paragraph(line)
  }

  /** `renderContent`: one block per line, in order. */
  function RenderContent(text: string): (blocks: seq<Block>)
    ensures |blocks| == CountChar(text, '\n') + 1
    ensures var lines := Split(text, "\n");
      |lines| == |blocks| && forall i :: 0 <= i < |lines| ==> blocks[i] == Classify(lines[i])
  {
    var lines := Split(text, "\n");
    SplitCharCount(text, '\n');
    seq(|lines|, i requires 0 <= i < |lines| => Classify(lines[i]))
  }

  // ---------------------------------------------------------------------
  // Trimming lines that start in column 0

  /** A line that does not start with whitespace keeps its start under
      `trim()`: the trimmed line is a non-empty prefix of it. */
  lemma TrimUnpadded(line: string)
    requires |line| > 0 && !IsWhite(line[0])
    ensures |Trim(line)| > 0 && StartsWith(line, Trim(line))
  {
    assert TrimStart(line) == line;
  }

  // ---------------------------------------------------------------------
  // The precedence of the classifier, one rule per kind of block

  /** A line is a level-2 heading exactly when it starts with "## ";
      the heading shows the rest of the line. */
  lemma Heading2Rule(line: string)
    ensures Classify(line).Heading2? <==> StartsWith(line, H2Prefix)
    ensures Classify(line).Heading2? ==> Classify(line).text == line[|H2Prefix|..]
  {
  }

  /** A line is a level-3 heading exactly when it starts with "### ":
      "### " never also starts with "## ", so the earlier rule cannot
      take it. */
  lemma Heading3Rule(line: string)
    ensures Classify(line).Heading3? <==> StartsWith(line, H3Prefix)
    ensures Classify(line).Heading3? ==> Classify(line).text == line[|H3Prefix|..]
  {
    if StartsWith(line, H3Prefix) {
      assert line[2] == H3Prefix[2] == '#';
      assert line[2] != H2Prefix[2];
    }
  }

  /** A line that is not a heading and contains "**" is shown as
      alternating plain and bold pieces, which rejoin to the line. */
  lemma EmphasisRule(line: string)
    ensures Classify(line).Emphasised? <==>
      !StartsWith(line, H2Prefix) && !StartsWith(line, H3Prefix) && Contains(line, BoldMarker)
    ensures Classify(line).Emphasised? ==>
      var segs := Classify(line).segments;
      && |segs| >= 2
      && SegmentTexts(segs) == Split(line, BoldMarker)
      && Join(SegmentTexts(segs), BoldMarker) == line
      && forall i :: 0 <= i < |segs| ==> (segs[i].Strong? <==> i % 2 == 1)
  {
    if Classify(line).Emphasised? {
      var parts := Split(line, BoldMarker);
      assert SegmentTexts(Segments(parts)) == parts;
    }
  }

  /** A line whose trimmed form starts with "- " or "* " and that is
      neither a heading nor emphasised is a bullet. */
  lemma BulletRule(line: string)
    ensures Classify(line).Bullet? <==>
      && !StartsWith(line, H2Prefix) && !StartsWith(line, H3Prefix)
      && !Contains(line, BoldMarker) && IsBulletLine(line)
  {
  }

  /** What a trimmed bullet line starts with. */
  lemma BulletMarkerShape(t: string)
    requires StartsWith(t, "- ") || StartsWith(t, "* ")
    ensures |t| >= 2 && (t[0] == '-' || t[0] == '*') && t[1] == ' '
  {
    assert t[..2][0] == t[0] && t[..2][1] == t[1];
  }

  /** The bullet marker is removed only when it sits in column 0; an
      indented bullet keeps its text as it is. */
  lemma BulletText(line: string)
    requires IsBulletLine(line)
    ensures |line| >= 2
    ensures StripBulletMarker(line) == (if line[0] == '-' || line[0] == '*' then line[2..] else line)
    ensures Classify(line).Bullet? ==>
      Classify(line).text == (if line[0] == '-' || line[0] == '*' then line[2..] else line)
  {
    BulletStrip(line);
    if Classify(line).Bullet? {
      BulletRule(line);
      PlainLine(line);
    }
  }

  /** The string fact behind `BulletText`: the marker of a bullet line is
      followed by white space when it stands in column 0. */
  lemma BulletStrip(line: string)
    requires IsBulletLine(line)
    ensures |line| >= 2
    ensures StripBulletMarker(line) == (if line[0] == '-' || line[0] == '*' then line[2..] else line)
  {
    var t := Trim(line);
    BulletMarkerShape(t);
    assert |t| <= |TrimStart(line)| <= |line|;
    if line[0] == '-' || line[0] == '*' {
      assert IsWhite(line[1]) by {
        TrimUnpadded(line);
        assert line[..|t|][1] == line[1];
      }
    }
  }


  /** A line whose trimmed form starts with digits and a full stop, and
      that no earlier rule takes, is a numbered item. */
  lemma NumberedRule(line: string)
    ensures Classify(line).Numbered? <==>
      && !StartsWith(line, H2Prefix) && !StartsWith(line, H3Prefix)
      && !Contains(line, BoldMarker) && !IsBulletLine(line)
      && StartsNumbered(Trim(line))
  {
  }

  /** A numbered start survives extending the string on the right. */
  lemma NumberedPrefix(line: string, t: string)
    requires StartsWith(line, t) && StartsNumbered(t)
    ensures StartsNumbered(line) && DigitRun(line, 0) == DigitRun(t, 0)
  {
    var d := DigitRun(t, 0);
    assert line[..d] == t[..d] by {
      assert line[..|t|][..d] == line[..d];
    }
    assert line[d] == line[..|t|][d];
    DigitRunUnique(line, 0, d);
  }

  /** The number of a numbered item is shown as its marker exactly when
      the line is not indented. */
  lemma NumberedMarker(line: string)
    requires StartsNumbered(Trim(line))
    ensures |line| > 0
    ensures NumberMarker(line).Some? <==> !IsWhite(line[0])
    ensures Classify(line).Numbered? ==> (Classify(line).marker.Some? <==> !IsWhite(line[0]))
  {
    assert |line| > 0 && (NumberMarker(line).Some? <==> !IsWhite(line[0])) by {
      TrimIsSlice(line);
      if !IsWhite(line[0]) {
        TrimUnpadded(line);
        NumberedPrefix(line, Trim(line));
      } else {
        DigitRunUnique(line, 0, 0);
      }
    }
    if Classify(line).Numbered? {
      NumberedRule(line);
      PlainLine(line);
    }
  }

  /** A line is a spacer exactly when it is all whitespace (including the
      empty line). */
  lemma SpacerRule(line: string)
    ensures Classify(line) == Spacer <==> AllWhite(line)
  {
    BlankIffAllWhite(line);
    if AllWhite(line) {
      if |line| >= 1 {
        assert !StartsWith(line, H2Prefix) by { assert line[0] != '#'; }
        assert !StartsWith(line, H3Prefix) by { assert line[0] != '#'; }
      }
      NoFirstCharNoMatch(line, BoldMarker);
    }
  }

  /** Every other line is an ordinary paragraph showing the line as it is. */
  lemma ParagraphRule(line: string)
    ensures Classify(line).Paragraph? <==>
      && !StartsWith(line, H2Prefix) && !StartsWith(line, H3Prefix)
      && !Contains(line, BoldMarker) && !IsBulletLine(line)
      && !StartsNumbered(Trim(line)) && !AllWhite(line)
    ensures Classify(line).Paragraph? ==> Classify(line).text == line
  {
    BlankIffAllWhite(line);
  }

  /** Text without a line feed renders as the single block of its one line. */
  lemma SingleLine(text: string)
    requires !Contains(text, "\n")
    ensures RenderContent(text) == [Classify(text)]
  {
    assert Split(text, "\n") == [text];
  }

  // ---------------------------------------------------------------------
  // Lines as the analysis text contains them

  /** A line that is not a heading and holds no "**" is classified by
      the remaining rules alone. */
  lemma PlainLine(line: string)
    requires !StartsWith(line, H2Prefix) && !StartsWith(line, H3Prefix)
    requires !Contains(line, BoldMarker)
    ensures Classify(line) == ClassifyPlain(line)
  {
  }

  /** A line that starts and ends with an ordinary character, is not a
      heading and holds no "**" is shown as a paragraph: no other rule
      looks past its first character. */
  lemma OrdinaryLine(line: string)
    requires |line| > 0 && !IsWhite(line[0]) && !IsWhite(line[|line| - 1])
    requires line[0] != '-' && line[0] != '*' && !IsDigit(line[0])
    requires !StartsWith(line, H2Prefix) && !StartsWith(line, H3Prefix)
    requires !Contains(line, BoldMarker)
    ensures Classify(line) == Paragraph(line)
  {
    TrimUnpaddedBothEnds(line);
    DigitRunUnique(line, 0, 0);
    assert !IsBulletLine(line) by {
      if |line| >= 2 {
        assert line[..2][0] == line[0];
      }
    }
    assert !StartsNumbered(Trim(line)) && Trim(line) != [];
    PlainLine(line);
  }

  /** A single '#' is not a heading marker. */
  lemma ExampleSingleHash(line: string)
    requires line == "# T\U{00ED}tulo"
    ensures Classify(line) == Paragraph(line)
  {
    assert line[0] == '#' && line[1] == ' ' && line[|line| - 1] == 'o';
    NoFirstCharNoMatch(line, BoldMarker);
    OrdinaryLine(line);
  }

  /** A bullet marker with nothing after it is trimmed away with its
      space, so the line is no bullet. */
  lemma ExampleBareDash(line: string)
    requires line == "- "
    ensures Classify(line) == Paragraph(line)
  {
    assert line[1..] == " ";
    BareMarker(line);
  }

  /** A bullet marker followed by nothing but whitespace loses that
      whitespace to the trim, so the line is no bullet and stays a
      paragraph. */
  lemma BareMarker(line: string)
    requires |line| >= 1 && (line[0] == '-' || line[0] == '*') && AllWhite(line[1..])
    ensures Classify(line) == Paragraph(line)
  {
    assert !Contains(line, BoldMarker) by {
      BareMarkerNoBold(line);
    }
    assert ClassifyPlain(line) == Paragraph(line) by {
      BareMarkerTrim(line);
      assert Trim(line)[0] == line[0];
      ShortTrimIsParagraph(line, Trim(line));
    }
    assert !StartsWith(line, H2Prefix) && !StartsWith(line, H3Prefix) by {
      NotHashNoHeading(line);
    }
    PlainLine(line);
  }

  /** A line that does not start with '#' is no heading. */
  lemma NotHashNoHeading(line: string)
    requires |line| >= 1 && line[0] != '#'
    ensures !StartsWith(line, H2Prefix) && !StartsWith(line, H3Prefix)
  {
    assert H2Prefix[0] == '#' && H3Prefix[0] == '#';
  }

  lemma BareMarkerNoBold(line: string)
    requires |line| >= 1 && AllWhite(line[1..])
    ensures !Contains(line, BoldMarker)
  {
    forall i: nat | i <= |line|
      ensures !OccursAt(line, BoldMarker, i)
    {
      if i + 2 <= |line| {
        assert line[i..i + 2][1] == line[1..][i];
      }
    }
  }

  /** A line that trims to one character that is not a digit is neither
      a bullet nor numbered nor blank. */
  lemma ShortTrimIsParagraph(line: string, t: string)
    requires t == Trim(line) && |t| == 1 && !IsDigit(t[0])
    ensures ClassifyPlain(line) == Paragraph(line)
  {
    assert !IsBulletLine(line) by {
      assert !StartsWith(t, "- ") && !StartsWith(t, "* ");
    }
    assert !StartsNumbered(t) by {
      assert DigitRun(t, 0) == 0;
    }
  }

  lemma BareMarkerTrim(line: string)
    requires |line| >= 1 && !IsWhite(line[0]) && AllWhite(line[1..])
    ensures Trim(line) == line[..1]
  {
    assert TrimStart(line) == line;
    assert line == line[..1] + line[1..];
    TrimEndWhiteTail(line[..1], line[1..]);
  }

  /** A bullet has something after its marker: its trimmed line is
      longer than the marker and the space. */
  lemma BulletHasContent(line: string)
    requires IsBulletLine(line)
    ensures |Trim(line)| >= 3
  {
    TrimEndsNotWhite(line);
    MarkerThenWord(Trim(line));
  }

  /** A marker and a space, then text ending in a non-whitespace
      character: the text is not empty. */
  lemma MarkerThenWord(t: string)
    requires StartsWith(t, "- ") || StartsWith(t, "* ")
    requires t == [] || !IsWhite(t[|t| - 1])
    ensures |t| >= 3
  {
    BulletMarkerShape(t);
    assert IsWhite(t[1]);
  }

  /** A line with two "**" markers and no other '*' that is not a
      heading falls into three pieces, the middle one bold. */
  lemma TwoMarkers(line: string, a: string, b: string, c: string)
    requires line == a + BoldMarker + b + BoldMarker + c
    requires !StartsWith(line, H2Prefix) && !StartsWith(line, H3Prefix)
    requires forall i :: 0 <= i < |a| ==> a[i] != '*'
    requires forall i :: 0 <= i < |b| ==> b[i] != '*'
    requires forall i :: 0 <= i < |c| ==> c[i] != '*'
    ensures Classify(line) == Emphasised([Plain(a), Strong(b), Plain(c)])
  {
    var sep := BoldMarker;
    var rest := b + sep + c;
    assert line == a + sep + rest;
    SplitAfterPiece(line, a, sep, rest);
    SplitAfterPiece(rest, b, sep, c);
    NoFirstCharNoMatch(c, sep);
    SplitWithout(c, sep);
    assert Split(line, sep) == [a, b, c];
    var segs := Segments([a, b, c]);
    assert segs == [Plain(a), Strong(b), Plain(c)];
  }

  /** A bullet line starts with whitespace or with its marker. */
  lemma BulletLineStart(line: string)
    requires IsBulletLine(line)
    ensures |line| > 0 && (IsWhite(line[0]) || line[0] == '-' || line[0] == '*')
  {
    BulletMarkerShape(Trim(line));
    TrimIsSlice(line);
    if !IsWhite(line[0]) {
      TrimUnpadded(line);
      assert line[..|Trim(line)|][0] == line[0];
    }
  }

  /** A bullet line never starts a heading, so emphasis anywhere in it
      takes precedence over the bullet marker. */
  lemma EmphasisBeforeBullet(line: string)
    requires IsBulletLine(line) && Contains(line, BoldMarker)
    ensures Classify(line).Emphasised?
  {
    BulletLineStart(line);
    assert !StartsWith(line, H2Prefix) && !StartsWith(line, H3Prefix);
    EmphasisRule(line);
  }

  lemma ExampleNumbered(line: string)
    requires line == "1. Uno"
    ensures Classify(line) == Numbered(Some("1."), "Uno")
  {
    assert line[0] == '1' && line[1] == '.' && line[2] == ' ' && line[|line| - 1] == 'o';
    assert AllDigits(line[..1]);
    NoFirstCharNoMatch(line, BoldMarker);
    NumberedItem(line, 1);
    assert line[..2] == "1." && line[3..] == "Uno";
  }

  /** A line in column 0 made of digits, a full stop, whitespace and
      text shows its digits and full stop as the marker and the text
      after the whitespace character. */
  lemma NumberedItem(line: string, d: nat)
    requires 1 <= d && d + 1 < |line| && AllDigits(line[..d]) && line[d] == '.'
    requires IsWhite(line[d + 1]) && !IsWhite(line[|line| - 1])
    requires !Contains(line, BoldMarker)
    ensures Classify(line) == Numbered(Some(line[..d + 1]), line[d + 2..])
  {
    assert IsDigit(line[..d][0]);
    TrimUnpaddedBothEnds(line);
    DigitRunUnique(line, 0, d);
    assert StartsNumbered(line);
    assert !IsBulletLine(line);
    PlainLine(line);
  }

  /** A line with no whitespace at either end is its own trim. */
  lemma TrimUnpaddedBothEnds(line: string)
    requires |line| > 0 && !IsWhite(line[0]) && !IsWhite(line[|line| - 1])
    ensures Trim(line) == line
  {
    assert AllWhite(line[..0]);
    TrimIndented(line, 0);
    assert line[0..] == line;
  }

  /** An indented numbered item loses its marker and keeps its whole
      line, indentation and number included, as its text. */
  lemma IndentedNumbered(line: string)
    requires |line| > 0 && IsWhite(line[0]) && Classify(line).Numbered?
    ensures Classify(line) == Numbered(None, line)
  {
    NumberedRule(line);
    PlainLine(line);
    DigitRunUnique(line, 0, 0);
    assert !StartsNumbered(line);
  }
}

=== FILE: app.dfy ===
/** The decision logic of the application shell (App.tsx): the state
    transitions of "analyse" and "delete", the file name a report is
    downloaded under, and which grades the records table highlights. The
    analysis service, the file reader, the confirmation dialog and the
    clock are parameters; the rendered page is not modelled. */
module App {
  import opened Wrappers
  import opened JsString
  import opened Types
  import opened StorageService
  import opened GradeExtractor

  datatype Status = Idle | Succeeded | Failed

  /** The component state that the handlers read and write, plus the
      storage slot they write through the storage service. */
  datatype AppState = AppState(
    studentName: string,
    studentParallel: string,
    hasFile: bool,
    status: Status,
    result: string,
    error: Option<string>,
    dbRecords: seq<EvaluationRecord>,
    storage: Slot)

  const MissingFieldsMessage: string := "Por favor completa el Nombre y Paralelo del estudiante."
  const UnexpectedErrorMessage: string := "Ocurri\U{00F3} un error inesperado."

  /** `!s.trim()`: the field holds nothing but whitespace. */
  function IsBlank(s: string): (b: bool)
    ensures b <==> AllWhite(s)
  {
    BlankIffAllWhite(s);
    Trim(s) == []
  }

  /** `err.message || "Ocurrió un error inesperado."`: an empty message
      falls back to the generic one. */
  function ErrorText(message: string): (text: string)
    ensures text != []
    ensures message != [] ==> text == message
    ensures message == [] ==> text == UnexpectedErrorMessage
  {
    if message == [] then UnexpectedErrorMessage else message
  }

  /** The table shows what the store holds. */
  predicate Synced(s: AppState) {
    GetEvaluations(s.storage) == Success(s.dbRecords)
  }

  /** The state after mounting: the records read from storage, or the
      parser's exception when the stored text is corrupt. */
  function Mount(slot: Slot): (r: Result<AppState, string>)
    ensures r.Failure? <==> slot.Unparseable?
    ensures r.Success? ==> Synced(r.value) && r.value.status == Idle && r.value.error.None?
    // the store is the slot given, and the table shows its records
    ensures r.Success? ==>
      && r.value.storage == slot
      && r.value.dbRecords == (if slot.Stored? then slot.records else [])
    // the form starts empty, with no file and no result
    ensures r.Success? ==>
      && r.value.studentName == [] && r.value.studentParallel == []
      && !r.value.hasFile && r.value.result == []
  {
    var records :- GetEvaluations(slot);
    Success(AppState("", "", false, Idle, "", None, records, slot))
  }

  /** `handleAnalyze`, run to completion. `analysis` is what the analysis
      service delivered for the selected file: its text, or the message of
      the exception it threw. `id` and `timestamp` are what the storage
      service draws from the UUID generator and the clock. */
  function HandleAnalyze(s: AppState, analysis: Result<string, string>, id: string, timestamp: int)
    : (t: AppState)
    // without a file the handler returns at once
    ensures !s.hasFile ==> t == s
    // with a blank name or parallel only the error message changes
    ensures s.hasFile && (IsBlank(s.studentName) || IsBlank(s.studentParallel)) ==>
      t == s.(error := Some(MissingFieldsMessage))
    // a failed analysis leaves the result, the table and the store alone
    ensures s.hasFile && !IsBlank(s.studentName) && !IsBlank(s.studentParallel) && analysis.Failure? ==>
      t == s.(status := Failed, error := Some(ErrorText(analysis.error)))
    // a successful analysis is shown and saved, newest first, under its extracted grade
    ensures s.hasFile && !IsBlank(s.studentName) && !IsBlank(s.studentParallel) && analysis.Success? ==>
      && t == s.(result := analysis.value, status := t.status, error := t.error,
                 dbRecords := t.dbRecords, storage := t.storage)
      && (t.status == Succeeded <==> !s.storage.Unparseable?)
      && (t.status == Succeeded ==>
            && t.error.None?
            && t.dbRecords == [NewRecord(Draft(s.studentName, s.studentParallel,
                                               ExtractGrade(analysis.value), analysis.value),
                                         id, timestamp)] + s.dbRecords
            && t.storage == Stored([t.dbRecords[0]] + GetEvaluations(s.storage).value))
      // a save that throws still shows the analysis, but leaves the table and the store alone
      && (s.storage.Unparseable? ==>
            t == s.(result := analysis.value, status := Failed,
                    error := Some(ErrorText(s.storage.message))))
  {
    if !s.hasFile then s
    else if IsBlank(s.studentName) || IsBlank(s.studentParallel) then
      s.(error := Some(MissingFieldsMessage))
    else
      match analysis
      case Failure(message) => s.(status := Failed, error := Some(ErrorText(message)))
      case Success(text) =>
        var draft := Draft(s.studentName, s.studentParallel, ExtractGrade(text), text);
        match SaveEvaluation(s.storage, draft, id, timestamp)
        case Failure(message) =>
          s.(result := text, status := Failed, error := Some(ErrorText(message)))
        case Success((rec, written)) =>
          s.(result := text, status := Succeeded, error := None,
             dbRecords := [rec] + s.dbRecords, storage := written)
  }

  /** `handleDelete`: `confirmed` is the answer to the confirmation
      dialog. An exception from the storage service ends the handler
      before any state is set. */
  function HandleDelete(s: AppState, id: string, confirmed: bool): (t: AppState)
    ensures !confirmed || s.storage.Unparseable? ==> t == s
    ensures confirmed && !s.storage.Unparseable? ==>
      && t == s.(dbRecords := t.dbRecords, storage := Stored(t.dbRecords))
      && !HasId(t.dbRecords, id)
      && (forall x :: x in t.dbRecords <==> x in GetEvaluations(s.storage).value && x.id != id)
      && IsSubsequence(t.dbRecords, GetEvaluations(s.storage).value)
      && forall x :: multiset(t.dbRecords)[x] ==
                     (if x.id != id then multiset(GetEvaluations(s.storage).value)[x] else 0)
  {
    if !confirmed then s
    else
      match DeleteEvaluation(s.storage, id)
      case Failure(_) => s
      case Success((remaining, written)) => s.(dbRecords := remaining, storage := written)
  }

  // ---------------------------------------------------------------------
  // Invariants of the two handlers

  /** The table keeps showing what the store holds across an analysis,
      whatever its outcome. */
  lemma AnalyzeKeepsSynced(s: AppState, analysis: Result<string, string>, id: string, timestamp: int)
    requires Synced(s)
    ensures Synced(HandleAnalyze(s, analysis, id, timestamp))
  {
  }

  /** ... and across a delete. */
  lemma DeleteKeepsSynced(s: AppState, id: string, confirmed: bool)
    requires Synced(s)
    ensures Synced(HandleDelete(s, id, confirmed))
  {
  }

  /** With the table in step with the store, a valid submission whose
      analysis succeeds is always saved: the store cannot be corrupt. */
  lemma SyncedAnalyzeSaves(s: AppState, text: string, id: string, timestamp: int)
    requires Synced(s) && s.hasFile && !IsBlank(s.studentName) && !IsBlank(s.studentParallel)
    ensures HandleAnalyze(s, Success(text), id, timestamp).status == Succeeded
    ensures HandleAnalyze(s, Success(text), id, timestamp).dbRecords[0].grade == ExtractGrade(text)
  {
  }

  /** Nothing is stored unless a file is selected, both fields are filled
      in and the analysis succeeded. */
  lemma AnalyzeSavesOnlyOnSuccess(s: AppState, analysis: Result<string, string>, id: string, timestamp: int)
    ensures var t := HandleAnalyze(s, analysis, id, timestamp);
      t.storage != s.storage || t.dbRecords != s.dbRecords ==>
        s.hasFile && !IsBlank(s.studentName) && !IsBlank(s.studentParallel)
        && analysis.Success? && t.status == Succeeded
  {
  }

  /** Pairwise-distinct ids in the table survive an analysis whose id is
      fresh, and any delete. */
  lemma HandlersKeepDistinctIds(s: AppState, analysis: Result<string, string>, id: string,
                                timestamp: int, victim: string, confirmed: bool)
    requires Synced(s) && IdsDistinct(s.dbRecords) && !HasId(s.dbRecords, id)
    ensures IdsDistinct(HandleAnalyze(s, analysis, id, timestamp).dbRecords)
    ensures IdsDistinct(HandleDelete(s, victim, confirmed).dbRecords)
  {
    var t := HandleAnalyze(s, analysis, id, timestamp);
    if t.dbRecords != s.dbRecords {
      SaveKeepsDistinctIds(s.storage, Draft(s.studentName, s.studentParallel,
        ExtractGrade(analysis.value), analysis.value), id, timestamp);
    }
    DeleteKeepsDistinctIds(s.dbRecords, victim);
  }

  // ---------------------------------------------------------------------
  // The download file name

  /** `name.replace(/\s+/g, '_')`: every maximal run of whitespace becomes
      one underscore. */
  function CollapseWhite(s: string): (r: string)
    // the collapsed name holds no whitespace and is no longer than the name
    ensures NoWhite(r)
    ensures |r| <= |s|
    decreases |s|
  {
    if s == [] then []
    else if IsWhite(s[0]) then
      NoWhiteCons('_', CollapseWhite(s[WhiteRun(s, 0)..]));
      "_" + CollapseWhite(s[WhiteRun(s, 0)..])
    else
      NoWhiteCons(s[0], CollapseWhite(s[1..]));
      [s[0]] + CollapseWhite(s[1..])
  }

  /** A non-whitespace character in front keeps a string free of
      whitespace. */
  lemma NoWhiteCons(c: char, t: string)
    requires !IsWhite(c) && NoWhite(t)
    ensures NoWhite([c] + t)
  {
    assert forall i :: 1 <= i < |[c] + t| ==> ([c] + t)[i] == t[i - 1];
  }

  const ReportPrefix: string := "Evaluacion_"
  const ReportSuffix: string := ".txt"

  /** The name a report is downloaded under: the prefix, the name with
      no whitespace left in it, then the parallel kept verbatim between
      the last separator and the extension. */
  function DownloadName(rec: EvaluationRecord): (n: string)
    ensures |n| == |ReportPrefix| + |CollapseWhite(rec.studentName)| + 1
                   + |rec.studentParallel| + |ReportSuffix|
    ensures StartsWith(n, ReportPrefix)
    ensures var c := CollapseWhite(rec.studentName);
      && n[|ReportPrefix|..|ReportPrefix| + |c|] == c
      && NoWhite(c)
    ensures n[|n| - |ReportSuffix| - |rec.studentParallel| - 1..] == "_" + rec.studentParallel + ReportSuffix
  {
    var c := CollapseWhite(rec.studentName);
    var tail := "_" + rec.studentParallel + ReportSuffix;
    assert ReportPrefix + c + "_" + rec.studentParallel + ReportSuffix == ReportPrefix + c + tail;
    ReportPrefix + c + tail
  }

  /** A name without whitespace is used as it is. */
  lemma {:induction false} CollapseKeepsPlainName(s: string)
    requires NoWhite(s)
    ensures CollapseWhite(s) == s
    decreases |s|
  {
    if s != [] {
      assert NoWhite(s[1..]) by {
        forall i | 0 <= i < |s[1..]| ensures !IsWhite(s[1..][i]) {
          assert s[1..][i] == s[i + 1];
        }
      }
      CollapseKeepsPlainName(s[1..]);
    }
  }

  /** Collapsing twice is collapsing once. */
  lemma CollapseIdempotent(s: string)
    ensures CollapseWhite(CollapseWhite(s)) == CollapseWhite(s)
  {
    CollapseKeepsPlainName(CollapseWhite(s));
  }

  /** A string that starts with a maximal whitespace run of length `j`
      collapses to one underscore followed by the collapsed rest. */
  lemma CollapseAfterRun(s: string, j: nat)
    requires 0 < j <= |s| && AllWhite(s[..j]) && (j == |s| || !IsWhite(s[j]))
    ensures CollapseWhite(s) == "_" + CollapseWhite(s[j..])
  {
    assert s[0..j] == s[..j];
    assert IsWhite(s[..j][0]);
    WhiteRunUnique(s, 0, j);
  }

  /** A string that ends in a non-white character has a leading
      whitespace run that stops before its end. */
  lemma RunEndsBeforeWord(a: string)
    requires a != [] && !IsWhite(a[|a| - 1])
    ensures WhiteRun(a, 0) < |a|
  {
    var j := WhiteRun(a, 0);
    forall k | 0 <= k < j
      ensures IsWhite(a[k])
    {
      assert a[0..j][k] == a[k];
    }
  }

  /** When `a` starts with whitespace but ends in a word, the leading run
      of `a` is also the leading run of `a + w + b`. */
  lemma LeadingRunOfJoin(a: string, w: string, b: string)
    requires a != [] && IsWhite(a[0]) && !IsWhite(a[|a| - 1])
    ensures WhiteRun(a, 0) < |a|
    ensures CollapseWhite(a) == "_" + CollapseWhite(a[WhiteRun(a, 0)..])
    ensures CollapseWhite(a + w + b) == "_" + CollapseWhite(a[WhiteRun(a, 0)..] + w + b)
  {
    var j := WhiteRun(a, 0);
    RunEndsBeforeWord(a);
    assert a[..j] == a[0..j];
    CollapseAfterRun(a, j);
    JoinAfterRun(a, w, b, j);
  }

  /** A whitespace run that ends inside `a` also ends there in `a + w + b`. */
  lemma JoinAfterRun(a: string, w: string, b: string, j: nat)
    requires 0 < j < |a| && AllWhite(a[..j]) && !IsWhite(a[j])
    ensures CollapseWhite(a + w + b) == "_" + CollapseWhite(a[j..] + w + b)
  {
    var s := a + w + b;
    assert s[..j] == a[..j] && s[j] == a[j];
    CollapseAfterRun(s, j);
    assert s[j..] == a[j..] + w + b;
  }

  /** The step of `CollapseRun` for an `a` that starts with whitespace. */
  lemma CollapseRunStep(a: string, w: string, b: string)
    requires a != [] && IsWhite(a[0]) && !IsWhite(a[|a| - 1])
    requires var t := a[WhiteRun(a, 0)..];
      CollapseWhite(t + w + b) == CollapseWhite(t) + "_" + CollapseWhite(b)
    ensures CollapseWhite(a + w + b) == CollapseWhite(a) + "_" + CollapseWhite(b)
  {
    LeadingRunOfJoin(a, w, b);
    var t := a[WhiteRun(a, 0)..];
    Regroup("_", CollapseWhite(t), "_", CollapseWhite(b));
  }

  /** Whitespace run by whitespace run: a non-empty run between two words
      becomes exactly one underscore, whatever its length or kind. */
  lemma {:induction false} CollapseRun(a: string, w: string, b: string)
    requires a == [] || !IsWhite(a[|a| - 1])
    requires |w| > 0 && AllWhite(w)
    requires b == [] || !IsWhite(b[0])
    ensures CollapseWhite(a + w + b) == CollapseWhite(a) + "_" + CollapseWhite(b)
    decreases |a|
  {
    if a == [] {
      var s := a + w + b;
      assert s == w + b && s[..|w|] == w && s[|w|..] == b;
      CollapseAfterRun(s, |w|);
    } else if IsWhite(a[0]) {
      var t := a[WhiteRun(a, 0)..];
      RunEndsBeforeWord(a);
      assert t[|t| - 1] == a[|a| - 1];
      CollapseRun(t, w, b);
      CollapseRunStep(a, w, b);
    } else {
      var s := a + w + b;
      assert s[0] == a[0];
      assert s[1..] == a[1..] + w + b;
      assert a[1..] == [] || a[1..][|a[1..]| - 1] == a[|a| - 1];
      CollapseRun(a[1..], w, b);
      var ct, cb := CollapseWhite(a[1..]), CollapseWhite(b);
      assert CollapseWhite(s) == [a[0]] + (ct + "_" + cb);
      assert CollapseWhite(a) == [a[0]] + ct;
      Regroup([a[0]], ct, "_", cb);
    }
  }

  // ---------------------------------------------------------------------
  // Highlighted grades

  /** The red badge of the records table. Its first test adds nothing:
      the badge is red exactly when the grade contains "0/100". */
  function IsHighlighted(grade: string): (b: bool)
    ensures b <==> Contains(grade, "0/100")
  {
    TenHoldsZero(grade);
    Contains(grade, "10/100") || Contains(grade, "0/100")
  }

  /** Every "10/100" contains a "0/100". */
  lemma TenHoldsZero(grade: string)
    ensures Contains(grade, "10/100") ==> Contains(grade, "0/100")
  {
    if Contains(grade, "10/100") {
      var i: nat :| i <= |grade| && OccursAt(grade, "10/100", i);
      assert grade[i + 1..i + 6] == grade[i..i + 6][1..];
      assert OccursAt(grade, "0/100", i + 1);
    }
  }

  /** For an extracted grade, the badge is red exactly when the score's
      last digit is 0: "100/100" and "90/100" are highlighted alongside
      "0/100" and "10/100", while "85/100" is not. */
  lemma HighlightOfToken(tok: string)
    requires IsGradeToken(tok)
    ensures IsHighlighted(tok) <==> tok[|tok| - |OutOf| - 1] == '0'
  {
    var d := |tok| - |OutOf|;
    if tok[d - 1] == '0' {
      assert tok[d - 1..d + 4] == [tok[d - 1]] + tok[d..];
      assert OccursAt(tok, "0/100", d - 1);
    }
    if Contains(tok, "0/100") {
      var i: nat :| i <= |tok| && OccursAt(tok, "0/100", i);
      SlashOnlyAfterScore(tok, i);
      assert tok[d - 1] == tok[i..i + 5][0];
    }
  }

  /** In a grade token the only '/' follows the score, so "0/100" can
      occur only one place before it. */
  lemma SlashOnlyAfterScore(tok: string, i: nat)
    requires IsGradeToken(tok) && OccursAt(tok, "0/100", i)
    ensures i == |tok| - |OutOf| - 1
  {
    var d := |tok| - |OutOf|;
    assert tok[i + 1] == tok[i..i + 5][1] == '/';
    assert forall k :: 0 <= k < d ==> tok[k] != '/' by {
      assert forall k :: 0 <= k < d ==> tok[k] == tok[..d][k];
    }
    assert forall k :: d < k < |tok| ==> tok[k] != '/' by {
      assert forall k :: d < k < |tok| ==> tok[k] == tok[d..][k - d];
    }
  }

  /** A perfect score is flagged like a failing one. */
  lemma ExampleHighlights(full: string, ninety: string, other: string)
    requires full == "100/100" && ninety == "90/100" && other == "85/100"
    ensures IsHighlighted(full) && IsHighlighted(ninety) && !IsHighlighted(other)
  {
    assert full == "100" + OutOf && ninety == "90" + OutOf && other == "85" + OutOf;
    assert IsGradeToken(full) && IsGradeToken(ninety) && IsGradeToken(other);
    HighlightOfToken(full);
    HighlightOfToken(ninety);
    HighlightOfToken(other);
  }

  /** The fallback grade is never highlighted. */
  lemma PendingNotHighlighted()
    ensures !IsHighlighted(Pending)
  {
    NoFirstCharNoMatch(Pending, "0/100");
  }
}

=== FILE: grade.dfy ===
/** The grade extractor of App.tsx: the first match of the regular
    expression `/CALIFICACIÓN FINAL:\s*(\d{1,3}\/100)/i` in the analysis
    text, or the sentinel "Pendiente" when there is none. The expression
    is hand-compiled into a scanner; its meaning as a regular expression
    is stated separately (`MatchesAt`) and the two are proved equal. */
module GradeExtractor {
  import opened Wrappers
  import opened JsString

  /** The label, in upper case as written in the expression. */
  const Label: string := "CALIFICACI\U{00D3}N FINAL:"

  /** The literal tail of the captured token. */
  const OutOf: string := "/100"

  /** The value returned when the text holds no grade. */
  const Pending: string := "Pendiente"

  /** Whether input character `c` matches pattern character `p` under the
      `i` flag without the `u` flag (ECMA-262 Canonicalize: compare upper
      cases, but a character outside ASCII never folds onto an ASCII one).
      For the characters of `Label` this leaves: an ASCII letter matches
      either case, 'Ó' also matches 'ó', anything else matches only
      itself. */
  predicate FoldsTo(c: char, p: char) {
    || c == p
    || ('A' <= p <= 'Z' && c as int == p as int + 32)
    || (p == '\U{00D3}' && c == '\U{00F3}')
  }

  /** The label matches, ignoring case, at index `p`. */
  predicate LabelAt(text: string, p: nat) {
    && p + |Label| <= |text|
    && forall k :: 0 <= k < |Label| ==> FoldsTo(text[p + k], Label[k])
  }

  /** A captured token: one to three ASCII digits, then "/100". */
  predicate IsGradeToken(tok: string) {
    && |OutOf| + 1 <= |tok| <= |OutOf| + 3
    && AllDigits(tok[..|tok| - |OutOf|])
    && tok[|tok| - |OutOf|..] == OutOf
  }

  /** The regular expression matches at `p`, its `\s*` taking `k`
      characters and its `\d{1,3}` taking `n`, and the group captures
      `tok`. */
  ghost predicate MatchWith(text: string, p: nat, k: nat, n: nat, tok: string) {
    var q := p + |Label| + k;
    && LabelAt(text, p)
    && 1 <= n <= 3
    && q + n + |OutOf| <= |text|
    && AllWhite(text[p + |Label|..q])
    && AllDigits(text[q..q + n])
    && text[q + n..q + n + |OutOf|] == OutOf
    && tok == text[q..q + n + |OutOf|]
  }

  /** Some way of matching the expression at `p` captures `tok`. */
  ghost predicate MatchesAt(text: string, p: nat, tok: string) {
    exists k: nat, n: nat :: MatchWith(text, p, k, n, tok)
  }

  /** The scanner at one start index: the label, then the whole run of
      whitespace, then the whole run of digits, which must be one to three
      long and be followed by "/100". Taking whole runs loses nothing:
      whitespace, digits and '/' are disjoint, so backtracking into a run
      can never lead to a match. */
  function ScanAt(text: string, p: nat): (r: Option<string>)
    ensures r.Some? ==> IsGradeToken(r.value)
    ensures r.Some? ==> p + |Label| + |r.value| <= |text|
    // what the scanner finds, the regular expression matches
    ensures r.Some? ==> MatchesAt(text, p, r.value)
  {
    if !LabelAt(text, p) then None
    else
      var q := WhiteRun(text, p + |Label|);
      var e := DigitRun(text, q);
      if 1 <= e - q <= 3 && OccursAt(text, OutOf, e) then
        var tok := text[q..e + |OutOf|];
        assert tok == text[q..e] + OutOf;
        assert MatchWith(text, p, q - (p + |Label|), e - q, tok);
        Some(tok)
      else None
  }

  /** What the regular expression matches, the scanner finds. */
  lemma ScanAtComplete(text: string, p: nat, tok: string)
    requires MatchesAt(text, p, tok)
    ensures ScanAt(text, p) == Some(tok)
  {
    var k: nat, n: nat :| MatchWith(text, p, k, n, tok);
    var q := p + |Label| + k;
    MatchWhiteRun(text, p, k, n, tok);
    MatchDigitRun(text, p, k, n, tok);
    ScanAtFinds(text, p, q, q + n, tok);
  }

  /** In a match, `\s*` takes the whole run of whitespace, since a digit
      follows it. */
  lemma MatchWhiteRun(text: string, p: nat, k: nat, n: nat, tok: string)
    requires MatchWith(text, p, k, n, tok)
    ensures WhiteRun(text, p + |Label|) == p + |Label| + k
  {
    var q := p + |Label| + k;
    assert IsDigit(text[q]) by {
      assert text[q..q + n][0] == text[q];
    }
    WhiteRunUnique(text, p + |Label|, q);
  }

  /** In a match, `\d{1,3}` takes the whole run of digits, since '/'
      follows it. */
  lemma MatchDigitRun(text: string, p: nat, k: nat, n: nat, tok: string)
    requires MatchWith(text, p, k, n, tok)
    ensures var q := p + |Label| + k;
      && DigitRun(text, q) == q + n
      && OccursAt(text, OutOf, q + n)
      && tok == text[q..q + n + |OutOf|]
  {
    var q := p + |Label| + k;
    assert text[q + n] == '/' by {
      assert text[q + n..q + n + |OutOf|][0] == text[q + n];
    }
    DigitRunUnique(text, q, q + n);
  }

  /** The scanner's result when its two runs end where a match's would. */
  lemma ScanAtFinds(text: string, p: nat, q: nat, e: nat, tok: string)
    requires LabelAt(text, p)
    requires WhiteRun(text, p + |Label|) == q && DigitRun(text, q) == e
    requires 1 <= e - q <= 3 && OccursAt(text, OutOf, e)
    requires tok == text[q..e + |OutOf|]
    ensures ScanAt(text, p) == Some(tok)
  {
  }

  /** The scanner agrees with the regular expression at every index, in
      both directions. */
  lemma ScanAtIsRegexMatch(text: string, p: nat, tok: string)
    ensures ScanAt(text, p) == Some(tok) <==> MatchesAt(text, p, tok)
  {
    if MatchesAt(text, p, tok) {
      ScanAtComplete(text, p, tok);
    }
  }

  /** The regular expression captures at most one token at a given index. */
  lemma MatchAtIsUnique(text: string, p: nat, tok1: string, tok2: string)
    requires MatchesAt(text, p, tok1) && MatchesAt(text, p, tok2)
    ensures tok1 == tok2
  {
    ScanAtIsRegexMatch(text, p, tok1);
    ScanAtIsRegexMatch(text, p, tok2);
  }

  /** The leftmost start index at or after `p` where the scanner finds a
      token, with that token (`FirstMatchIsLeftmost` states that nothing
      is skipped). */
  function FirstMatchFrom(text: string, p: nat): (r: Option<(nat, string)>)
    requires p <= |text|
    ensures r.Some? ==> p <= r.value.0 <= |text| && ScanAt(text, r.value.0) == Some(r.value.1)
    decreases |text| - p
  {
    match ScanAt(text, p)
    case Some(tok) => Some((p, tok))
    case None =>
      if p == |text| then None
      else FirstMatchFrom(text, p + 1)
  }

  /** No label fits past the end of the text. */
  lemma ScanPastEnd(text: string, j: nat)
    requires |text| <= j
    ensures ScanAt(text, j).None?
  {
    assert !LabelAt(text, j);
  }

  /** The scan skips no index where the scanner finds a token. */
  lemma {:induction false} FirstMatchIsLeftmost(text: string, p: nat)
    requires p <= |text|
    ensures var r := FirstMatchFrom(text, p);
      && (r.Some? ==> forall j: nat :: p <= j < r.value.0 ==> ScanAt(text, j).None?)
      && (r.None? ==> forall j: nat :: p <= j ==> ScanAt(text, j).None?)
    decreases |text| - p, 1
  {
    if ScanAt(text, p).None? {
      if p == |text| {
        forall j: nat | p <= j
          ensures ScanAt(text, j).None?
        {
          ScanPastEnd(text, j);
        }
      } else {
        StepOverNoMatch(text, p);
      }
    }
  }

  /** The inductive step of `FirstMatchIsLeftmost`, at an index where the
      scanner finds nothing. */
  lemma {:induction false} StepOverNoMatch(text: string, p: nat)
    requires p < |text| && ScanAt(text, p).None?
    ensures var r := FirstMatchFrom(text, p);
      && (r.Some? ==> forall j: nat :: p <= j < r.value.0 ==> ScanAt(text, j).None?)
      && (r.None? ==> forall j: nat :: p <= j ==> ScanAt(text, j).None?)
    decreases |text| - p, 0
  {
    var r := FirstMatchFrom(text, p + 1);
    assert FirstMatchFrom(text, p) == r;
    FirstMatchIsLeftmost(text, p + 1);
    if r.Some? {
      forall j: nat | p <= j < r.value.0
        ensures ScanAt(text, j).None?
      {
        if j != p {
          assert p + 1 <= j < r.value.0;
        }
      }
    } else {
      forall j: nat | p <= j
        ensures ScanAt(text, j).None?
      {
        if j != p {
          assert p + 1 <= j;
        }
      }
    }
  }

  /** `extractGrade`: the token captured by the first match, or
      "Pendiente". */
  function ExtractGrade(text: string): (grade: string)
    ensures grade == Pending || IsGradeToken(grade)
    ensures grade == Pending <==> forall j: nat :: ScanAt(text, j).None?
    ensures grade != Pending ==>
      exists p: nat :: ScanAt(text, p) == Some(grade) && forall j: nat :: j < p ==> ScanAt(text, j).None?
  {
    FirstMatchIsLeftmost(text, 0);
    match FirstMatchFrom(text, 0)
    case Some((_, tok)) =>
      assert tok != Pending by {
        assert IsGradeToken(tok);
        assert Pending[|Pending| - |OutOf|..] != OutOf;
      }
      tok
    case None => Pending
  }

  /** `extractGrade` in the regular expression's own terms: "Pendiente"
      exactly when the expression matches nowhere; otherwise the token
      captured at the leftmost index where it matches. */
  lemma ExtractGradeIsLeftmostMatch(text: string)
    ensures ExtractGrade(text) == Pending <==> forall p: nat, tok :: !MatchesAt(text, p, tok)
    ensures ExtractGrade(text) != Pending ==>
      exists p: nat :: && MatchesAt(text, p, ExtractGrade(text))
                       && forall j: nat, tok :: j < p ==> !MatchesAt(text, j, tok)
  {
    var grade := ExtractGrade(text);
    if grade == Pending {
      forall p: nat, tok | MatchesAt(text, p, tok)
        ensures false
      {
        ScanAtIsRegexMatch(text, p, tok);
      }
    } else {
      var p: nat :| ScanAt(text, p) == Some(grade) && forall j: nat :: j < p ==> ScanAt(text, j).None?;
      ScanAtIsRegexMatch(text, p, grade);
      forall j: nat, tok | j < p
        ensures !MatchesAt(text, j, tok)
      {
        ScanAtIsRegexMatch(text, j, tok);
      }
      assert ScanAt(text, p).Some?;
      ScanAtIsRegexMatch(text, p, grade);
    }
  }

  /** A run of four or more digits after the label and its whitespace
      defeats the match at that occurrence: `\d{1,3}` cannot stop inside
      the run, because "/100" must follow it directly. */
  lemma FourDigitsNoMatch(text: string, p: nat, tok: string)
    requires LabelAt(text, p)
    requires var q := WhiteRun(text, p + |Label|);
      q + 4 <= |text| && AllDigits(text[q..q + 4])
    ensures !MatchesAt(text, p, tok)
  {
    var q := WhiteRun(text, p + |Label|);
    assert IsDigit(text[q..q + 4][3]);
    assert DigitRun(text, q) >= q + 4 by {
      DigitRunCovers(text, q, q + 4);
    }
    ScanAtIsRegexMatch(text, p, tok);
  }

  /** The digit run from `i` extends at least over a block of digits. */
  lemma DigitRunCovers(text: string, i: nat, j: nat)
    requires i <= j <= |text| && AllDigits(text[i..j])
    ensures DigitRun(text, i) >= j
    decreases j - i
  {
    if i < j {
      assert IsDigit(text[i..j][0]);
      assert text[i + 1..j] == text[i..j][1..];
      DigitRunCovers(text, i + 1, j);
    }
  }

  /** A match needs nothing after "/100": the expression has no right
      anchor, so any text may follow the token. */
  lemma NoRightAnchor(text: string, p: nat, tok: string, more: string)
    requires MatchesAt(text, p, tok)
    ensures MatchesAt(text + more, p, tok)
  {
    var k: nat, n: nat :| MatchWith(text, p, k, n, tok);
    var t := text + more;
    var q := p + |Label| + k;
    assert t[p + |Label|..q] == text[p + |Label|..q];
    assert t[q..q + n] == text[q..q + n];
    assert t[q + n..q + n + |OutOf|] == text[q + n..q + n + |OutOf|];
    assert t[q..q + n + |OutOf|] == text[q..q + n + |OutOf|];
    assert t[..|text|] == text;
    assert MatchWith(t, p, k, n, tok);
  }

  /** No label starts at an index whose character does not fold to 'C'. */
  lemma NoLabelNoScan(text: string, j: nat)
    requires j < |text| && !FoldsTo(text[j], Label[0])
    ensures ScanAt(text, j).None?
  {
  }

  /** A grade token right after the first label of the text (the label in
      any case, then whitespace) is what `extractGrade` returns. */
  lemma GradeAfterFirstLabel(text: string, pre: string, lab: string, ws: string, digits: string, post: string)
    requires text == pre + lab + ws + digits + OutOf + post
    requires forall j :: 0 <= j < |pre| ==> !FoldsTo(pre[j], Label[0])
    requires |lab| == |Label| && forall k :: 0 <= k < |Label| ==> FoldsTo(lab[k], Label[k])
    requires AllWhite(ws) && 1 <= |digits| <= 3 && AllDigits(digits)
    ensures ExtractGrade(text) == digits + OutOf
  {
    var p := |pre|;
    LabelThenGrade(text, pre, lab, ws, digits, post);
    ScanAtComplete(text, p, digits + OutOf);
    forall j: nat | j < p
      ensures ScanAt(text, j).None?
    {
      assert text[j] == pre[j];
      NoLabelNoScan(text, j);
    }
    FirstScanIsGrade(text, p, digits + OutOf);
  }

  /** The expression matches right after the text in front, capturing
      the digits and "/100". */
  lemma LabelThenGrade(text: string, pre: string, lab: string, ws: string, digits: string, post: string)
    requires text == pre + lab + ws + digits + OutOf + post
    requires |lab| == |Label| && forall k :: 0 <= k < |Label| ==> FoldsTo(lab[k], Label[k])
    requires AllWhite(ws) && 1 <= |digits| <= 3 && AllDigits(digits)
    ensures MatchesAt(text, |pre|, digits + OutOf)
  {
    var p := |pre|;
    var q := p + |Label| + |ws|;
    var n := |digits|;
    assert LabelAt(text, p) by {
      forall k | 0 <= k < |Label|
        ensures FoldsTo(text[p + k], Label[k])
      {
        assert text[p + k] == lab[k];
      }
    }
    assert text[p + |Label|..q] == ws;
    assert text[q..q + n] == digits;
    assert text[q + n..q + n + |OutOf|] == OutOf;
    assert text[q..q + n + |OutOf|] == digits + OutOf;
    assert MatchWith(text, p, |ws|, n, digits + OutOf);
  }

  /** A token the scanner finds with nothing found before it is the
      grade. */
  lemma FirstScanIsGrade(text: string, p: nat, tok: string)
    requires ScanAt(text, p) == Some(tok)
    requires forall j: nat :: j < p ==> ScanAt(text, j).None?
    ensures ExtractGrade(text) == tok
  {
    var grade := ExtractGrade(text);
    assert grade != Pending;
    var p' :| ScanAt(text, p') == Some(grade) && forall j: nat :: j < p' ==> ScanAt(text, j).None?;
    assert p' == p;
  }

  lemma ExampleUpperCase(text: string)
    requires text == "...\nCALIFICACI\U{00D3}N FINAL: 85/100\n"
    ensures ExtractGrade(text) == "85/100"
  {
    assert "85" + OutOf == "85/100";
    assert text == "...\n" + Label + " " + "85" + OutOf + "\n";
    assert forall j :: 0 <= j < 4 ==> "...\n"[j] in ".\n";
    GradeAfterFirstLabel(text, "...\n", Label, " ", "85", "\n");
  }

  lemma ExampleLowerCase(text: string)
    requires text == "calificaci\U{00F3}n final: 7/100"
    ensures ExtractGrade(text) == "7/100"
  {
    assert "7" + OutOf == "7/100";
    GradeAfterFirstLabel(text, "", "calificaci\U{00F3}n final:", " ", "7", "");
  }

  lemma ExampleNoGrade()
    ensures ExtractGrade("Buen trabajo.") == Pending
  {
  }

  lemma ExampleTrailingDigit(text: string)
    requires text == "CALIFICACI\U{00D3}N FINAL: 85/1000"
    ensures ExtractGrade(text) == "85/100"
  {
    assert "85" + OutOf == "85/100";
    GradeAfterFirstLabel(text, "", Label, " ", "85", "0");
  }

  lemma ExampleLineBreaks(text: string)
    requires text == "CALIFICACI\U{00D3}N FINAL:\n\t 90/100"
    ensures ExtractGrade(text) == "90/100"
  {
    assert "90" + OutOf == "90/100";
    GradeAfterFirstLabel(text, "", Label, "\n\t ", "90", "");
  }
}

=== FILE: js_string.dfy ===
/** The JavaScript string operations the application relies on, over
    `seq<char>`: the whitespace class shared by the regular-expression
    escape `\s` and `String.prototype.trim`, and `startsWith`, `includes`,
    `indexOf`, `split` and `replace` with a plain-string pattern. */
module JsString {
  import opened Wrappers

  /** WhiteSpace or LineTerminator in the sense of ECMA-262 (sections
      12.2 and 12.3): TAB, LF, VT, FF, CR, the space separators of Unicode
      category Zs, NBSP, ZWNBSP, LINE SEPARATOR and PARAGRAPH SEPARATOR. */
  predicate IsWhite(c: char) {
    var n := c as int;
    || (0x09 <= n <= 0x0D)
    || n == 0x20 || n == 0xA0 || n == 0x1680
    || (0x2000 <= n <= 0x200A)
    || n == 0x2028 || n == 0x2029 || n == 0x202F || n == 0x205F
    || n == 0x3000 || n == 0xFEFF
  }

  /** `s` ends in a non-whitespace character. */
  predicate EndsInWord(s: string) {
    |s| > 0 && !IsWhite(s[|s| - 1])
  }

  /** The class `\d`: ASCII digits only. */
  predicate IsDigit(c: char) {
    '0' <= c <= '9'
  }

  predicate AllWhite(s: string) {
    forall i :: 0 <= i < |s| ==> IsWhite(s[i])
  }

  predicate NoWhite(s: string) {
    forall i :: 0 <= i < |s| ==> !IsWhite(s[i])
  }

  predicate AllDigits(s: string) {
    forall i :: 0 <= i < |s| ==> IsDigit(s[i])
  }

  /** `s.startsWith(p)`. */
  predicate StartsWith(s: string, p: string) {
    |p| <= |s| && s[..|p|] == p
  }

  /** `s.endsWith(p)`. */
  predicate EndsWith(s: string, p: string) {
    |p| <= |s| && s[|s| - |p|..] == p
  }

  /** `sub` occurs in `s` at index `i`. */
  predicate OccursAt(s: string, sub: string, i: nat) {
    i + |sub| <= |s| && s[i..i + |sub|] == sub
  }

  /** `s.includes(sub)`. */
  predicate Contains(s: string, sub: string) {
    exists i: nat | i <= |s| :: OccursAt(s, sub, i)
  }

  /** The search behind `s.indexOf(sub, k)`: the first index at or after
      `k` where `sub` occurs. */
  function IndexOfFrom(s: string, sub: string, k: nat): (r: Option<nat>)
    requires k <= |s|
    ensures r.Some? ==> k <= r.value && OccursAt(s, sub, r.value)
    ensures r.Some? ==> forall j: nat :: k <= j < r.value ==> !OccursAt(s, sub, j)
    ensures r.None? ==> forall j: nat :: k <= j ==> !OccursAt(s, sub, j)
    decreases |s| - k
  {
    if OccursAt(s, sub, k) then Some(k)
    else if k == |s| then None
    else IndexOfFrom(s, sub, k + 1)
  }

  /** `s.indexOf(sub)`, with None for -1. */
  function IndexOf(s: string, sub: string): (r: Option<nat>)
    ensures r.None? <==> !Contains(s, sub)
    ensures r.Some? ==> OccursAt(s, sub, r.value)
    ensures r.Some? ==> forall j: nat :: j < r.value ==> !OccursAt(s, sub, j)
  {
    IndexOfFrom(s, sub, 0)
  }

  /** `s.replace(pat, rep)` with a string pattern: only the first
      occurrence is replaced. */
  function ReplaceFirst(s: string, pat: string, rep: string): (r: string)
    ensures !Contains(s, pat) ==> r == s
    ensures StartsWith(s, pat) ==> r == rep + s[|pat|..]
  {
    match IndexOf(s, pat)
    case None => s
    case Some(i) =>
      assert StartsWith(s, pat) ==> OccursAt(s, pat, 0);
      s[..i] + rep + s[i + |pat|..]
  }

  /** The inverse of `Split`: `parts.join(sep)`. */
  function Join(parts: seq<string>, sep: string): string
    requires |parts| >= 1
  {
    if |parts| == 1 then parts[0] else parts[0] + sep + Join(parts[1..], sep)
  }

  /** An occurrence of `sub` inside a prefix of `s` is an occurrence in `s`. */
  lemma OccursInPrefix(s: string, sub: string, i: nat, j: nat)
    requires i <= |s| && OccursAt(s[..i], sub, j)
    ensures OccursAt(s, sub, j)
  {
    assert s[..i][j..j + |sub|] == s[j..j + |sub|];
  }

  /** `s.split(sep)` for a non-empty string separator (ECMA-262 section
      22.1.3.23): the pieces between the non-overlapping occurrences of
      `sep` found from left to right. */
  function Split(s: string, sep: string): (parts: seq<string>)
    requires |sep| > 0
    ensures |parts| >= 1
    ensures Join(parts, sep) == s
    ensures forall i :: 0 <= i < |parts| ==> !Contains(parts[i], sep)
    ensures |parts| > 1 <==> Contains(s, sep)
    ensures |parts| > 1 ==> IndexOf(s, sep) == Some(|parts[0]|)
    decreases |s|
  {
    match IndexOf(s, sep)
    case None => [s]
    case Some(i) =>
      var head, rest := s[..i], Split(s[i + |sep|..], sep);
      assert !Contains(head, sep) by {
        forall j: nat | j <= |head| && OccursAt(head, sep, j)
          ensures false
        {
          OccursInPrefix(s, sep, i, j);
        }
      }
      assert s == head + sep + s[i + |sep|..] by {
        assert s[i..i + |sep|] == sep;
        assert s == s[..i] + s[i..i + |sep|] + s[i + |sep|..];
      }
      [head] + rest
  }

  /** Number of occurrences of the character `c` in `s`. */
  function CountChar(s: string, c: char): nat
  {
    if s == [] then 0 else (if s[0] == c then 1 else 0) + CountChar(s[1..], c)
  }

  lemma CountCharAppend(a: string, b: string, c: char)
    ensures CountChar(a + b, c) == CountChar(a, c) + CountChar(b, c)
  {
    if a != [] {
      assert (a + b)[0] == a[0];
      assert (a + b)[1..] == a[1..] + b;
      CountCharAppend(a[1..], b, c);
    } else {
      assert a + b == b;
    }
  }

  lemma NoCharCount(s: string, c: char)
    requires !Contains(s, [c])
    ensures CountChar(s, c) == 0
  {
    if s != [] {
      assert s[0] != c by {
        assert !OccursAt(s, [c], 0);
        assert s[0..1] == [s[0]];
      }
      assert !Contains(s[1..], [c]) by {
        forall j: nat | j <= |s[1..]| && OccursAt(s[1..], [c], j)
          ensures false
        {
          assert s[1..][j..j + 1] == [s[j + 1]] == s[j + 1..j + 2];
          assert OccursAt(s, [c], j + 1);
        }
      }
      NoCharCount(s[1..], c);
    }
  }

  /** Splitting on a one-character separator yields one piece more than
      the separator occurs. */
  lemma {:induction false} SplitCharCount(s: string, c: char)
    ensures |Split(s, [c])| == CountChar(s, c) + 1
    decreases |s|
  {
    var parts := Split(s, [c]);
    match IndexOf(s, [c])
    case None =>
      NoCharCount(s, c);
    case Some(i) =>
      var rest := s[i + 1..];
      assert parts == [s[..i]] + Split(rest, [c]);
      SplitCharCount(rest, c);
      assert s == s[..i] + [c] + rest by {
        assert s[i..i + 1] == [c];
        assert s == s[..i] + s[i..i + 1] + rest;
      }
      NoCharCount(parts[0], c);
      CountCharAppend(s[..i] + [c], rest, c);
      CountCharAppend(s[..i], [c], c);
  }

  /** `s.trimStart()`: the suffix left after dropping leading whitespace. */
  function TrimStart(s: string): (r: string)
    ensures |r| <= |s| && r == s[|s| - |r|..]
    ensures AllWhite(s[..|s| - |r|])
    ensures r == [] || !IsWhite(r[0])
    decreases |s|
  {
    if |s| > 0 && IsWhite(s[0]) then
      var r := TrimStart(s[1..]);
      assert s[..|s| - |r|] == [s[0]] + s[1..][..|s[1..]| - |r|];
      r
    else s
  }

  /** `s.trimEnd()`: the prefix left after dropping trailing whitespace. */
  function TrimEnd(s: string): (r: string)
    ensures |r| <= |s| && r == s[..|r|]
    ensures AllWhite(s[|r|..])
    ensures r == [] || !IsWhite(r[|r| - 1])
    decreases |s|
  {
    if |s| > 0 && IsWhite(s[|s| - 1]) then
      var r := TrimEnd(s[..|s| - 1]);
      assert s[|r|..] == s[..|s| - 1][|r|..] + [s[|s| - 1]];
      r
    else s
  }

  /** `s.trim()`. */
  function Trim(s: string): string {
    TrimEnd(TrimStart(s))
  }

  /** The result of `trim()` is a slice of its input whose dropped ends
      are all whitespace. */
  lemma TrimIsSlice(s: string)
    ensures exists a: nat, b: nat | a <= b <= |s| ::
      && Trim(s) == s[a..b] && AllWhite(s[..a]) && AllWhite(s[b..])
  {
    var t := TrimStart(s);
    var a := |s| - |t|;
    var r := TrimEnd(t);
    var b := a + |r|;
    assert s[a..b] == t[..|r|];
    assert s[b..] == t[|r|..];
  }

  /** ... and the slice is the largest such: it neither starts nor ends
      with whitespace. */
  lemma TrimEndsNotWhite(s: string)
    ensures Trim(s) == [] || (!IsWhite(Trim(s)[0]) && !IsWhite(Trim(s)[|Trim(s)| - 1]))
  {
    var t := TrimStart(s);
    var r := TrimEnd(t);
    if r != [] {
      assert r[0] == t[0];
    }
  }

  /** A string is blank (`!s.trim()`) exactly when it is all whitespace. */
  lemma BlankIffAllWhite(s: string)
    ensures Trim(s) == [] <==> AllWhite(s)
  {
    var t := TrimStart(s);
    assert s == s[..|s| - |t|] + t;
    assert t[0..] == t;
  }

  /** trimEnd never reaches past a non-whitespace character: what lies
      in front of the last one is kept. */
  lemma TrimEndAppend(a: string, b: string)
    requires !AllWhite(b)
    ensures TrimEnd(a + b) == a + TrimEnd(b)
    decreases |b|
  {
    if IsWhite(b[|b| - 1]) {
      var i :| 0 <= i < |b| && !IsWhite(b[i]);
      assert (a + b)[..|a + b| - 1] == a + b[..|b| - 1];
      assert !IsWhite(b[..|b| - 1][i]);
      TrimEndAppend(a, b[..|b| - 1]);
    }
  }

  /** Trailing whitespace appended to a string is all removed by trimEnd. */
  lemma TrimEndWhiteTail(a: string, w: string)
    requires AllWhite(w)
    ensures TrimEnd(a + w) == TrimEnd(a)
    decreases |w|
  {
    if w != [] {
      assert (a + w)[..|a + w| - 1] == a + w[..|w| - 1];
      TrimEndWhiteTail(a, w[..|w| - 1]);
    } else {
      assert a + w == a;
    }
  }

  /** Length of the maximal run of whitespace starting at `i`. */
  function WhiteRun(s: string, i: nat): (j: nat)
    requires i <= |s|
    ensures i <= j <= |s| && AllWhite(s[i..j])
    ensures j == |s| || !IsWhite(s[j])
    decreases |s| - i
  {
    if i < |s| && IsWhite(s[i]) then WhiteRun(s, i + 1) else i
  }

  /** End of the maximal run of ASCII digits starting at `i`. */
  function DigitRun(s: string, i: nat): (j: nat)
    requires i <= |s|
    ensures i <= j <= |s| && AllDigits(s[i..j])
    ensures j == |s| || !IsDigit(s[j])
    decreases |s| - i
  {
    if i < |s| && IsDigit(s[i]) then DigitRun(s, i + 1) else i
  }

  /** The end of a maximal whitespace run is the only index that closes a
      whitespace run from `i` and is followed by a non-whitespace. */
  lemma {:induction false} WhiteRunUnique(s: string, i: nat, j: nat)
    requires i <= j <= |s| && AllWhite(s[i..j]) && (j == |s| || !IsWhite(s[j]))
    ensures WhiteRun(s, i) == j
    decreases j - i
  {
    if i < j {
      assert IsWhite(s[i..j][0]);
      assert s[i + 1..j] == s[i..j][1..];
      WhiteRunUnique(s, i + 1, j);
    }
  }

  /** The same uniqueness for digit runs. */
  lemma {:induction false} DigitRunUnique(s: string, i: nat, j: nat)
    requires i <= j <= |s| && AllDigits(s[i..j]) && (j == |s| || !IsDigit(s[j]))
    ensures DigitRun(s, i) == j
    decreases j - i
  {
    if i < j {
      assert IsDigit(s[i..j][0]);
      assert s[i + 1..j] == s[i..j][1..];
      DigitRunUnique(s, i + 1, j);
    }
  }

  /** With `k` leading whitespace characters and a non-white last
      character, `trim()` drops exactly those `k`. */
  lemma TrimIndented(s: string, k: nat)
    requires k < |s| && AllWhite(s[..k]) && !IsWhite(s[k]) && !IsWhite(s[|s| - 1])
    ensures Trim(s) == s[k..]
  {
    var t := TrimStart(s);
    var j := |s| - |t|;
    assert s[..j] == s[0..j];
    assert s[..k] == s[0..k];
    assert j == |s| || s[j] == t[0];
    WhiteRunUnique(s, 0, j);
    WhiteRunUnique(s, 0, k);
    assert t == s[k..];
    assert t[|t| - 1] == s[|s| - 1];
  }

  /** No occurrence of `m` starts before `i` when no character before
      `i` is the first character of `m`. */
  lemma NoOccurrenceBefore(s: string, m: string, i: nat)
    requires |m| > 0 && i <= |s| && forall j :: 0 <= j < i ==> s[j] != m[0]
    ensures forall j: nat :: j < i ==> !OccursAt(s, m, j)
  {
    forall j: nat | j < i
      ensures !OccursAt(s, m, j)
    {
      if j + |m| <= |s| {
        assert s[j..j + |m|][0] == s[j];
      }
    }
  }

  /** ... and when that holds of the whole string, `m` does not occur. */
  lemma NoFirstCharNoMatch(s: string, m: string)
    requires |m| > 0 && forall j :: 0 <= j < |s| ==> s[j] != m[0]
    ensures !Contains(s, m)
  {
    NoOccurrenceBefore(s, m, |s|);
  }

  /** Every cut `split` makes is at the leftmost occurrence of the
      separator in what is left of the string: within a piece followed by
      the separator, the separator first occurs right after the piece. */
  lemma {:induction false} SplitCutsLeftmost(s: string, sep: string)
    requires |sep| > 0
    ensures var parts := Split(s, sep);
      forall k :: 0 <= k < |parts| - 1 ==> IndexOf(parts[k] + sep, sep) == Some(|parts[k]|)
    decreases |s|
  {
    var parts := Split(s, sep);
    if |parts| > 1 {
      var i := |parts[0]|;
      var rest := s[i + |sep|..];
      assert parts == [s[..i]] + Split(rest, sep);
      SplitCutsLeftmost(rest, sep);
      IndexOfCut(s, sep, i);
      assert s[..i + |sep|] == parts[0] + sep by {
        assert s[i..i + |sep|] == sep;
      }
      forall k | 1 <= k < |parts| - 1
        ensures IndexOf(parts[k] + sep, sep) == Some(|parts[k]|)
      {
        assert parts[k] == Split(rest, sep)[k - 1];
      }
    }
  }

  /** The first occurrence of `sub` in `s` is also the first occurrence
      in the prefix of `s` that ends with it. */
  lemma IndexOfCut(s: string, sub: string, i: nat)
    requires IndexOf(s, sub) == Some(i)
    ensures IndexOf(s[..i + |sub|], sub) == Some(i)
  {
    var t := s[..i + |sub|];
    assert OccursAt(t, sub, i) by {
      assert t[i..i + |sub|] == s[i..i + |sub|];
    }
    var r := IndexOf(t, sub);
    assert r.Some?;
    OccursInPrefix(s, sub, i + |sub|, r.value);
  }

  /** `split` cuts at the leftmost occurrence of the separator. */
  lemma SplitAtFirst(s: string, sep: string, i: nat)
    requires |sep| > 0 && OccursAt(s, sep, i)
    requires forall j: nat :: j < i ==> !OccursAt(s, sep, j)
    ensures Split(s, sep) == [s[..i]] + Split(s[i + |sep|..], sep)
  {
    assert Contains(s, sep);
    assert IndexOf(s, sep) == Some(i);
  }

  /** Without the separator, `split` gives the whole string back. */
  lemma SplitWithout(s: string, sep: string)
    requires |sep| > 0 && !Contains(s, sep)
    ensures Split(s, sep) == [s]
  {
  }

  /** `split` cuts after a leading piece that holds no character
      starting the separator. */
  lemma SplitAfterPiece(s: string, piece: string, sep: string, rest: string)
    requires |sep| > 0 && s == piece + sep + rest
    requires forall i :: 0 <= i < |piece| ==> piece[i] != sep[0]
    ensures Split(s, sep) == [piece] + Split(rest, sep)
  {
    assert s[..|piece|] == piece;
    assert s[|piece|..|piece| + |sep|] == sep;
    assert s[|piece| + |sep|..] == rest;
    NoOccurrenceBefore(s, sep, |piece|);
    SplitAtFirst(s, sep, |piece|);
  }

  /** Text in front does not change how a string ends. */
  lemma EndsInWordAppend(x: string, y: string)
    requires EndsInWord(y)
    ensures EndsInWord(x + y)
  {
    assert (x + y)[|x + y| - 1] == y[|y| - 1];
  }

  /** Regrouping four concatenated strings. Proofs that otherwise leave
      the solver to rediscover associativity call this instead. */
  lemma Regroup(a: string, b: string, c: string, d: string)
    ensures a + (b + c + d) == (a + b) + c + d
    ensures a + b + c + d == a + b + (c + d)
  {
  }

  /** A string starts with any of its prefixes. */
  lemma StartsWithAppend(x: string, y: string)
    ensures StartsWith(x + y, x)
  {
    assert (x + y)[..|x|] == x;
  }
}

=== FILE: storage.dfy ===
/** The evaluation record store kept under one browser-storage key
    ("logo_evaluations_db"), and the plain-text report produced for one
    record (services/storageService.ts).

    The stored value is modelled as the record sequence it serialises:
    writing a sequence and reading it back yields the same sequence, which
    is what `JSON.stringify` followed by `JSON.parse` does for records made
    of strings and an integer timestamp. */
module StorageService {
  import opened Wrappers
  import opened JsString
  import opened Types

  /** What reading the storage key can yield: nothing, the empty string,
      a serialised record array as this module writes it, or text the JSON
      parser rejects. Other JSON values are not modelled. */
  datatype Slot =
    | Absent                                  // nothing stored: `getItem` gives null
    | Blank                                   // the empty string, which is falsy
    | Stored(records: seq<EvaluationRecord>)  // the serialised record array
    | Unparseable(message: string)            // text that the JSON parser rejects

  /** `getEvaluations`: the stored records, newest first; no records when
      nothing (or the empty string) is stored; the parser's exception when
      the stored text is not JSON. */
  function GetEvaluations(slot: Slot): (r: Result<seq<EvaluationRecord>, string>)
    ensures r.Failure? <==> slot.Unparseable?
    ensures slot.Unparseable? ==> r.error == slot.message
    ensures (slot.Absent? || slot.Blank?) ==> r == Success([])
    ensures slot.Stored? ==> r == Success(slot.records)
  {
    match slot
    case Absent => Success([])
    case Blank => Success([])
    case Stored(records) => Success(records)
    case Unparseable(message) => Failure(message)
  }

  /** The record `saveEvaluation` builds: the draft's four fields copied
      unchanged, plus the generated id and the clock reading. */
  function NewRecord(draft: Draft, id: string, timestamp: int): (rec: EvaluationRecord)
    ensures rec.id == id && rec.timestamp == timestamp
    ensures Draft(rec.studentName, rec.studentParallel, rec.grade, rec.analysisText) == draft
  {
    EvaluationRecord(id, draft.studentName, draft.studentParallel, timestamp,
                     draft.grade, draft.analysisText)
  }

  /** `saveEvaluation`: reads the stored records, puts the new record in
      front of them, writes the whole sequence back and returns the new
      record together with the slot as written. `id` and `timestamp` stand
      for `crypto.randomUUID()` and `Date.now()`. A read failure is
      propagated before anything is written. */
  function SaveEvaluation(slot: Slot, draft: Draft, id: string, timestamp: int)
    : (r: Result<(EvaluationRecord, Slot), string>)
    ensures r.Failure? <==> slot.Unparseable?
    ensures r.Success? ==>
      var (rec, written) := r.value;
      && rec.id == id && rec.timestamp == timestamp
      && rec.studentName == draft.studentName
      && rec.studentParallel == draft.studentParallel
      && rec.grade == draft.grade
      && rec.analysisText == draft.analysisText
      && written.Stored?
      && |written.records| == |GetEvaluations(slot).value| + 1
      && written.records[0] == rec
      && written.records[1..] == GetEvaluations(slot).value
  {
    var existing :- GetEvaluations(slot);
    var rec := NewRecord(draft, id, timestamp);
    Success((rec, Stored([rec] + existing)))
  }

  /** `existing.filter(item => item.id !== id)`. */
  function Without(records: seq<EvaluationRecord>, id: string): (r: seq<EvaluationRecord>)
    ensures forall x :: x in r <==> x in records && x.id != id
    ensures !HasId(r, id)
    ensures |r| <= |records|
    decreases |records|
  {
    if records == [] then []
    else if records[0].id != id then [records[0]] + Without(records[1..], id)
    else Without(records[1..], id)
  }

  /** `deleteEvaluation`: reads the stored records, drops every record
      carrying `id`, writes what is left and returns it together with the
      slot as written. */
  function DeleteEvaluation(slot: Slot, id: string)
    : (r: Result<(seq<EvaluationRecord>, Slot), string>)
    ensures r.Failure? <==> slot.Unparseable?
    ensures r.Success? ==>
      var (remaining, written) := r.value;
      && written == Stored(remaining)
      && !HasId(remaining, id)
      && (forall x :: x in remaining <==> x in GetEvaluations(slot).value && x.id != id)
      && IsSubsequence(remaining, GetEvaluations(slot).value)
      // every kept record keeps all its stored copies
      && forall x :: multiset(remaining)[x] ==
                     (if x.id != id then multiset(GetEvaluations(slot).value)[x] else 0)
  {
    var existing :- GetEvaluations(slot);
    var remaining := Without(existing, id);
    WithoutIsSubsequence(existing, id);
    WithoutKeepsCopies(existing, id);
    Success((remaining, Stored(remaining)))
  }

  /** Filtering distributes over concatenation, so records keep their
      relative order. */
  lemma {:induction false} WithoutAppend(a: seq<EvaluationRecord>, b: seq<EvaluationRecord>, id: string)
    ensures Without(a + b, id) == Without(a, id) + Without(b, id)
    decreases |a|
  {
    if a == [] {
      assert a + b == b;
    } else {
      assert (a + b)[0] == a[0];
      assert (a + b)[1..] == a[1..] + b;
      WithoutAppend(a[1..], b, id);
    }
  }

  /** The filter keeps every copy of a record with another id and no copy
      of a record with the id. */
  lemma {:induction false} WithoutKeepsCopies(records: seq<EvaluationRecord>, id: string)
    ensures forall x :: multiset(Without(records, id))[x] ==
                        (if x.id != id then multiset(records)[x] else 0)
    decreases |records|
  {
    if records != [] {
      WithoutKeepsCopies(records[1..], id);
      assert records == [records[0]] + records[1..];
      assert multiset(records) == multiset([records[0]]) + multiset(records[1..]);
    }
  }

  /** What `deleteEvaluation` keeps is a subsequence of what it read. */
  lemma {:induction false} WithoutIsSubsequence(records: seq<EvaluationRecord>, id: string)
    ensures IsSubsequence(Without(records, id), records)
    decreases |records|
  {
    if records != [] {
      var r := Without(records, id);
      WithoutIsSubsequence(records[1..], id);
      if records[0].id != id {
        assert r[0] == records[0] && r[1..] == Without(records[1..], id);
      }
    }
  }

  /** Deleting an id that no record carries changes nothing. */
  lemma {:induction false} WithoutAbsentId(records: seq<EvaluationRecord>, id: string)
    requires !HasId(records, id)
    ensures Without(records, id) == records
    decreases |records|
  {
    if records != [] {
      assert records[0].id != id;
      assert !HasId(records[1..], id) by {
        forall i | 0 <= i < |records[1..]|
          ensures records[1..][i].id != id
        {
          assert records[1..][i] == records[i + 1];
        }
      }
      WithoutAbsentId(records[1..], id);
      assert records == [records[0]] + records[1..];
    }
  }

  /** Deleting the same id twice is deleting it once. */
  lemma WithoutIdempotent(records: seq<EvaluationRecord>, id: string)
    ensures Without(Without(records, id), id) == Without(records, id)
  {
    WithoutAbsentId(Without(records, id), id);
  }

  /** A sub-sequence of a sequence with distinct ids has distinct ids. */
  lemma {:induction false} SubsequenceKeepsDistinctIds(a: seq<EvaluationRecord>, b: seq<EvaluationRecord>)
    requires IsSubsequence(a, b) && IdsDistinct(b)
    ensures IdsDistinct(a)
    decreases |b|
  {
    if a != [] {
      assert b != [];
      assert IdsDistinct(b[1..]) by {
        forall i, j | 0 <= i < j < |b[1..]|
          ensures b[1..][i].id != b[1..][j].id
        {
          assert b[1..][i] == b[i + 1] && b[1..][j] == b[j + 1];
        }
      }
      if a[0] == b[0] && IsSubsequence(a[1..], b[1..]) {
        SubsequenceKeepsDistinctIds(a[1..], b[1..]);
        SubsequenceElements(a[1..], b[1..]);
        forall j | 0 < j < |a|
          ensures a[0].id != a[j].id
        {
          assert a[j] == a[1..][j - 1];
          assert a[j] in a[1..];
          assert a[j] in b[1..];
          var k :| 0 <= k < |b[1..]| && b[1..][k] == a[j];
          assert b[k + 1] == a[j];
        }
      } else {
        SubsequenceKeepsDistinctIds(a, b[1..]);
      }
    }
  }

  /** Every element of a subsequence is an element of the sequence. */
  lemma {:induction false} SubsequenceElements<T>(a: seq<T>, b: seq<T>)
    requires IsSubsequence(a, b)
    ensures forall x :: x in a ==> x in b
    decreases |b|
  {
    if a != [] {
      if a[0] == b[0] && IsSubsequence(a[1..], b[1..]) {
        SubsequenceElements(a[1..], b[1..]);
        assert a == [a[0]] + a[1..];
        assert b == [b[0]] + b[1..];
      } else {
        SubsequenceElements(a, b[1..]);
        assert b == [b[0]] + b[1..];
      }
    }
  }

  /** Id uniqueness survives a delete. */
  lemma DeleteKeepsDistinctIds(records: seq<EvaluationRecord>, id: string)
    requires IdsDistinct(records)
    ensures IdsDistinct(Without(records, id))
  {
    WithoutIsSubsequence(records, id);
    SubsequenceKeepsDistinctIds(Without(records, id), records);
  }

  /** Id uniqueness survives a save whose id is fresh. */
  lemma SaveKeepsDistinctIds(slot: Slot, draft: Draft, id: string, timestamp: int)
    requires GetEvaluations(slot).Success?
    requires IdsDistinct(GetEvaluations(slot).value)
    requires !HasId(GetEvaluations(slot).value, id)
    ensures SaveEvaluation(slot, draft, id, timestamp).Success?
    ensures IdsDistinct(SaveEvaluation(slot, draft, id, timestamp).value.1.records)
  {
    var before := GetEvaluations(slot).value;
    var stored := SaveEvaluation(slot, draft, id, timestamp).value.1.records;
    forall i, j | 0 <= i < j < |stored|
      ensures stored[i].id != stored[j].id
    {
      assert stored[j] == before[j - 1];
      if i == 0 {
        assert stored[i].id == id;
      } else {
        assert stored[i] == before[i - 1];
      }
    }
  }

  /** With distinct ids, deleting a present id removes exactly one record. */
  lemma {:induction false} DeletePresentIdRemovesOne(records: seq<EvaluationRecord>, id: string)
    requires IdsDistinct(records) && HasId(records, id)
    ensures |Without(records, id)| == |records| - 1
    decreases |records|
  {
    if records[0].id == id {
      assert !HasId(records[1..], id) by {
        forall i | 0 <= i < |records[1..]|
          ensures records[1..][i].id != id
        {
          assert records[1..][i] == records[i + 1];
        }
      }
      WithoutAbsentId(records[1..], id);
    } else {
      var k :| 0 <= k < |records| && records[k].id == id;
      assert records[1..][k - 1].id == id;
      assert IdsDistinct(records[1..]) by {
        forall i, j | 0 <= i < j < |records[1..]|
          ensures records[1..][i].id != records[1..][j].id
        {
          assert records[1..][i] == records[i + 1] && records[1..][j] == records[j + 1];
        }
      }
      DeletePresentIdRemovesOne(records[1..], id);
    }
  }

  /** Saving a record under a fresh id and then deleting that id gives
      back the records that were stored before the save. */
  lemma SaveThenDeleteRestores(slot: Slot, draft: Draft, id: string, timestamp: int)
    requires GetEvaluations(slot).Success?
    requires !HasId(GetEvaluations(slot).value, id)
    ensures SaveEvaluation(slot, draft, id, timestamp).Success?
    ensures
      var written := SaveEvaluation(slot, draft, id, timestamp).value.1;
      DeleteEvaluation(written, id) == Success((GetEvaluations(slot).value, Stored(GetEvaluations(slot).value)))
  {
    var before := GetEvaluations(slot).value;
    var written := SaveEvaluation(slot, draft, id, timestamp).value.1;
    assert written.records == [NewRecord(draft, id, timestamp)] + before;
    WithoutAppend([NewRecord(draft, id, timestamp)], before, id);
    WithoutAbsentId(before, id);
  }

  /** What a save or a delete writes is what the next read returns: after
      a save, the new record in front of the records read before it; after
      a delete, the records the delete returned. */
  lemma ReadAfterWrite(slot: Slot, draft: Draft, id: string, timestamp: int, victim: string)
    ensures SaveEvaluation(slot, draft, id, timestamp).Success? ==>
      var (rec, written) := SaveEvaluation(slot, draft, id, timestamp).value;
      GetEvaluations(written) == Success([rec] + GetEvaluations(slot).value)
    ensures DeleteEvaluation(slot, victim).Success? ==>
      var (remaining, written) := DeleteEvaluation(slot, victim).value;
      GetEvaluations(written) == Success(remaining)
  {
  }

  /** The storage slot as one mutable object, for callers that hold the
      store rather than thread its value: each operation reads the slot
      and, unless the read throws, writes the slot back whole. */
  class EvaluationStore {
    var slot: Slot

    constructor(initial: Slot)
      ensures slot == initial
    {
      slot := initial;
    }

    method Load() returns (r: Result<seq<EvaluationRecord>, string>)
      ensures r == GetEvaluations(slot)
    {
      r := GetEvaluations(slot);
    }

    method Save(draft: Draft, id: string, timestamp: int) returns (r: Result<EvaluationRecord, string>)
      modifies this
      ensures r.Failure? <==> old(slot).Unparseable?
      ensures r.Failure? ==> slot == old(slot)
      ensures r.Success? ==> r.value == NewRecord(draft, id, timestamp)
      ensures r.Success? ==> slot == Stored([r.value] + GetEvaluations(old(slot)).value)
    {
      match SaveEvaluation(slot, draft, id, timestamp)
      case Success((rec, written)) =>
        slot := written;
        r := Success(rec);
      case Failure(e) =>
        r := Failure(e);
    }

    method Delete(id: string) returns (r: Result<seq<EvaluationRecord>, string>)
      modifies this
      ensures r.Failure? <==> old(slot).Unparseable?
      ensures r.Failure? ==> slot == old(slot)
      ensures r.Success? ==> slot == Stored(r.value) && r.value == Without(GetEvaluations(old(slot)).value, id)
    {
      match DeleteEvaluation(slot, id)
      case Success((remaining, written)) =>
        slot := written;
        r := Success(remaining);
      case Failure(e) =>
        r := Failure(e);
    }
  }

  // ---------------------------------------------------------------------
  // Report
  // ---------------------------------------------------------------------

  /** `n` copies of `c`. */
  function Repeat(c: char, n: nat): (r: string)
    ensures |r| == n && forall i :: 0 <= i < n ==> r[i] == c
  {
    if n == 0 then [] else [c] + Repeat(c, n - 1)
  }

  /** The banner rule: 48 equals signs. */
  const Rule: string := Repeat('=', 48)
  const Title: string := "REPORTE DE EVALUACI\U{00D3}N DE LOGOTIPO - 4\U{00BA} A\U{00D1}O"
  const NameLabel: string := "Nombre:   "
  const ParallelLabel: string := "Paralelo: "
  const DateLabel: string := "Fecha:    "
  const GradeLabel: string := "Calificaci\U{00F3}n: "

  /** The text between the title and the name line. */
  const BeforeName: string :=
    "\n" + Rule + "\n\n" + "DATOS DEL ESTUDIANTE\n--------------------\n"

  /** The text between the date line and the grade line. */
  const BeforeGrade: string := "\n\n" + "RESULTADO FINAL\n---------------\n"

  /** The text between the grade line and the analysis text, without the
      blank line that separates it from the analysis text. */
  const AnalysisBanner: string :=
    "\n\n" + Rule + "\nAN\U{00C1}LISIS DETALLADO Y CORRECCIONES\n" + Rule

  /** The report up to and including the rule that closes the
      "ANÁLISIS DETALLADO Y CORRECCIONES" banner: the opening rule and
      title, then the body that carries the record's fields. */
  function ReportHead(rec: EvaluationRecord, date: string): string {
    (Rule + "\n") + Title + ReportBody(rec, date)
  }

  /** The head after the title, grouped around the lines that carry the
      record's fields. */
  function ReportBody(rec: EvaluationRecord, date: string): string {
    BeforeName + (NameLabel + rec.studentName)
    + ("\n" + (ParallelLabel + rec.studentParallel)
       + ("\n" + (DateLabel + date)
          + (BeforeGrade + (GradeLabel + rec.grade) + AnalysisBanner)))
  }

  /** The template literal before `.trim()`: it opens with a line break
      and closes with a line break and two spaces. */
  function ReportTemplate(rec: EvaluationRecord, date: string): string {
    "\n" + ReportHead(rec, date) + Gap + rec.analysisText + Tail
  }

  /** `generateReportContent`, with the locale-formatted date passed in.
      The report opens with the banner, so its first character is '=',
      and it ends in a non-whitespace character. */
  function GenerateReportContent(rec: EvaluationRecord, date: string): (r: string)
    ensures StartsWith(r, Rule + "\n" + Title)
    ensures r[0] == '='
    ensures EndsInWord(r)
  {
    var r := Trim(ReportTemplate(rec, date));
    TrimmedReportEnds(rec, date, r);
    r
  }

  /** The ends of the trimmed template `r`. */
  lemma TrimmedReportEnds(rec: EvaluationRecord, date: string, r: string)
    requires r == Trim(ReportTemplate(rec, date))
    ensures StartsWith(r, Rule + "\n" + Title) && r[0] == '=' && EndsInWord(r)
  {
    ReportHeadEnds(rec, date);
    TemplateSplit(ReportHead(rec, date), rec.analysisText, ReportTemplate(rec, date));
    SplitReportEnds(rec, date, r);
  }

  /** The ends of the report `r`, given as the head and what the trim
      leaves of the analysis text. */
  lemma SplitReportEnds(rec: EvaluationRecord, date: string, r: string)
    requires r == ReportHead(rec, date) + AnalysisRemainder(rec.analysisText)
    ensures StartsWith(r, Rule + "\n" + Title) && r[0] == '=' && EndsInWord(r)
  {
    var banner := Rule + "\n" + Title;
    ReportHeadEnds(rec, date);
    StartsWithAppend(banner, ReportBody(rec, date));
    assert banner[0] == Rule[0] == '=';
    HeadThenRemainderEnds(r, ReportHead(rec, date), banner, rec.analysisText);
  }

  /** `parts` occur in `s` one after the other, without overlapping. */
  ghost predicate InOrder(s: string, parts: seq<string>)
    decreases |parts|
  {
    || parts == []
    || exists i: nat | i <= |s| ::
         OccursAt(s, parts[0], i) && InOrder(s[i + |parts[0]|..], parts[1..])
  }

  lemma InOrderCons(pre: string, p: string, rest: string, parts: seq<string>)
    requires InOrder(rest, parts)
    ensures InOrder(pre + p + rest, [p] + parts)
  {
    var s := pre + p + rest;
    assert s[|pre|..|pre| + |p|] == p;
    assert s[|pre| + |p|..] == rest;
    assert ([p] + parts)[0] == p && ([p] + parts)[1..] == parts;
    assert OccursAt(s, p, |pre|);
    assert InOrder(s[|pre| + |p|..], parts);
  }

  lemma InOrderLast(s: string, p: string)
    requires |p| <= |s| && s[|s| - |p|..] == p
    ensures InOrder(s, [p])
  {
    var i := |s| - |p|;
    assert OccursAt(s, p, i);
    assert InOrder(s[i + |p|..], []);
  }

  /** The head starts and ends with a rule character. */
  lemma ReportHeadEnds(rec: EvaluationRecord, date: string)
    ensures |ReportHead(rec, date)| > 0
    ensures !IsWhite(ReportHead(rec, date)[0])
    ensures !IsWhite(ReportHead(rec, date)[|ReportHead(rec, date)| - 1])
  {
    var h := ReportHead(rec, date);
    assert h[0] == Rule[0];
    assert h[|h| - 1] == Rule[|Rule| - 1];
  }

  /** The characters the template puts around the analysis text. */
  const Gap: string := "\n\n"
  const Tail: string := "\n  "

  lemma GapAndTailAreWhite()
    ensures AllWhite(Gap) && AllWhite(Tail)
  {
    assert Gap[0] == '\n' && Gap[1] == '\n';
    assert Tail[0] == '\n' && Tail[1] == ' ' && Tail[2] == ' ';
  }

  /** The opening line break is the only thing trimmed at the front. */
  lemma TrimStartTemplate(head: string, rest: string)
    requires |head| > 0 && !IsWhite(head[0])
    ensures TrimStart("\n" + (head + rest)) == head + rest
  {
    var t := "\n" + (head + rest);
    assert IsWhite(t[0]);
    assert t[1..] == head + rest;
  }

  /** Trimming the template: only the opening line break goes at the
      front; at the back the closing line break and spaces go, with the
      analysis text's own trailing whitespace, and, if the analysis text
      is all whitespace, the blank line in front of it too. */
  lemma TrimTemplate(head: string, a: string)
    requires |head| > 0 && !IsWhite(head[0]) && !IsWhite(head[|head| - 1])
    ensures Trim("\n" + head + Gap + a + Tail) == TrimEnd(head + Gap + a)
  {
    var u := head + Gap + a;
    var t := "\n" + head + Gap + a + Tail;
    assert t == "\n" + (head + (Gap + a + Tail));
    assert head + (Gap + a + Tail) == u + Tail;
    TrimStartTemplate(head, Gap + a + Tail);
    assert TrimStart(t) == u + Tail;
    GapAndTailAreWhite();
    TrimEndWhiteTail(u, Tail);
  }

  lemma TrimEndBody(head: string, a: string)
    requires |head| > 0 && !IsWhite(head[|head| - 1])
    ensures !AllWhite(a) ==> TrimEnd(head + Gap + a) == head + Gap + TrimEnd(a)
    ensures AllWhite(a) ==> TrimEnd(head + Gap + a) == head
  {
    if !AllWhite(a) {
      TrimEndAppend(head + Gap, a);
    } else {
      GapAndTailAreWhite();
      assert AllWhite(Gap + a);
      assert head + Gap + a == head + (Gap + a);
      TrimEndWhiteTail(head, Gap + a);
    }
  }

  /** An occurrence cuts a string into the text before it, the part and
      the text after it. */
  lemma CutAtOccurrence(s: string, p: string, i: nat)
    requires OccursAt(s, p, i)
    ensures s == s[..i] + p + s[i + |p|..]
  {
  }

  lemma ConsAppend(ps: seq<string>, qs: seq<string>)
    requires ps != []
    ensures [ps[0]] + (ps[1..] + qs) == ps + qs
  {
  }

  lemma ConsTail(qs: seq<string>)
    requires qs != []
    ensures [qs[0]] + qs[1..] == qs
  {
  }

  /** Text in front keeps parts in order. */
  lemma InOrderAfter(x: string, y: string, qs: seq<string>)
    requires InOrder(y, qs)
    ensures InOrder(x + y, qs)
  {
    if qs != [] {
      var i: nat :| i <= |y| && OccursAt(y, qs[0], i) && InOrder(y[i + |qs[0]|..], qs[1..]);
      var pre, rest := y[..i], y[i + |qs[0]|..];
      CutAtOccurrence(y, qs[0], i);
      InOrderCons(x + pre, qs[0], rest, qs[1..]);
      Regroup(x, pre, qs[0], rest);
      ConsTail(qs);
    }
  }

  /** Parts in order in `x`, then parts in order in `y`, are in order in
      `x + y`. */
  lemma {:induction false} InOrderAppend(x: string, y: string, ps: seq<string>, qs: seq<string>)
    requires InOrder(x, ps) && InOrder(y, qs)
    ensures InOrder(x + y, ps + qs)
    decreases |ps|
  {
    if ps == [] {
      assert ps + qs == qs;
      InOrderAfter(x, y, qs);
    } else {
      var i: nat :| i <= |x| && OccursAt(x, ps[0], i) && InOrder(x[i + |ps[0]|..], ps[1..]);
      var pre, rest := x[..i], x[i + |ps[0]|..];
      InOrderAppend(rest, y, ps[1..], qs);
      InOrderCons(pre, ps[0], rest + y, ps[1..] + qs);
      CutAtOccurrence(x, ps[0], i);
      Regroup(pre, ps[0], rest, y);
      ConsAppend(ps, qs);
    }
  }

  /** What the final trim leaves of the analysis text and of the blank
      line in front of it. */
  function AnalysisRemainder(a: string): string {
    if AllWhite(a) then [] else Gap + TrimEnd(a)
  }

  /** Generic form of `ReportSplit`, over any head with non-whitespace
      ends. */
  lemma TemplateSplit(head: string, a: string, t: string)
    requires |head| > 0 && !IsWhite(head[0]) && !IsWhite(head[|head| - 1])
    requires t == "\n" + head + Gap + a + Tail
    ensures Trim(t) == head + AnalysisRemainder(a)
  {
    TrimTemplate(head, a);
    TrimEndBody(head, a);
    RemainderJoin(head, a);
  }

  /** Trimming the template leaves the head, then the analysis text less
      its trailing whitespace after one blank line; an all-whitespace
      analysis is trimmed away together with that blank line. */
  lemma ReportSplit(rec: EvaluationRecord, date: string)
    ensures GenerateReportContent(rec, date) == ReportHead(rec, date) + AnalysisRemainder(rec.analysisText)
  {
    ReportHeadEnds(rec, date);
    TemplateSplit(ReportHead(rec, date), rec.analysisText, ReportTemplate(rec, date));
  }

  /** The two cases of `TrimEndBody`, as one expression. */
  lemma RemainderJoin(head: string, a: string)
    ensures head + AnalysisRemainder(a)
      == if AllWhite(a) then head else head + Gap + TrimEnd(a)
  {
    if AllWhite(a) {
      assert head + [] == head;
    } else {
      assert head + Gap + TrimEnd(a) == head + (Gap + TrimEnd(a));
    }
  }


  /** Generic form of `HeadFieldsInOrder`. */
  lemma FieldsInOrder(p0: string, t: string, p1: string, f1: string, f2: string, f3: string,
                      p4: string, f4: string, q: string)
    ensures InOrder(p0 + t + (p1 + f1 + ("\n" + f2 + ("\n" + f3 + (p4 + f4 + q)))),
                    [t, f1, f2, f3, f4])
  {
    InOrderCons(p4, f4, q, []);
    assert [f4] + [] == [f4];
    InOrderCons("\n", f3, p4 + f4 + q, [f4]);
    assert [f3] + [f4] == [f3, f4];
    InOrderCons("\n", f2, "\n" + f3 + (p4 + f4 + q), [f3, f4]);
    assert [f2] + [f3, f4] == [f2, f3, f4];
    InOrderCons(p1, f1, "\n" + f2 + ("\n" + f3 + (p4 + f4 + q)), [f2, f3, f4]);
    assert [f1] + [f2, f3, f4] == [f1, f2, f3, f4];
    InOrderCons(p0, t, p1 + f1 + ("\n" + f2 + ("\n" + f3 + (p4 + f4 + q))), [f1, f2, f3, f4]);
    assert [t] + [f1, f2, f3, f4] == [t, f1, f2, f3, f4];
  }

  /** The head shows the title, then the name, parallel, date and grade
      lines. */
  lemma HeadFieldsInOrder(rec: EvaluationRecord, date: string)
    ensures InOrder(ReportHead(rec, date),
                    [Title, NameLabel + rec.studentName, ParallelLabel + rec.studentParallel,
                     DateLabel + date, GradeLabel + rec.grade])
  {
    FieldsInOrder(Rule + "\n", Title, BeforeName, NameLabel + rec.studentName,
                  ParallelLabel + rec.studentParallel, DateLabel + date,
                  BeforeGrade, GradeLabel + rec.grade, AnalysisBanner);
  }

  /** Generic form of `ReportFieldsInOrder`. */
  lemma HeadThenRemainderInOrder(head: string, a: string, parts: seq<string>)
    requires InOrder(head, parts)
    ensures InOrder(head + AnalysisRemainder(a), parts + [TrimEnd(a)])
  {
    var rest := AnalysisRemainder(a);
    if AllWhite(a) {
      assert TrimEnd(a) == [];
    }
    InOrderLast(rest, TrimEnd(a));
    InOrderAppend(head, rest, parts, [TrimEnd(a)]);
  }

  /** The report shows, in this order, the title, the name, parallel and
      date lines, the grade line and the analysis text (less its trailing
      whitespace, which the final trim removes). */
  lemma ReportFieldsInOrder(rec: EvaluationRecord, date: string)
    ensures InOrder(GenerateReportContent(rec, date),
                    [Title,
                     NameLabel + rec.studentName,
                     ParallelLabel + rec.studentParallel,
                     DateLabel + date,
                     GradeLabel + rec.grade,
                     TrimEnd(rec.analysisText)])
  {
    var parts := [Title, NameLabel + rec.studentName, ParallelLabel + rec.studentParallel,
                  DateLabel + date, GradeLabel + rec.grade];
    ReportSplit(rec, date);
    HeadFieldsInOrder(rec, date);
    HeadThenRemainderInOrder(ReportHead(rec, date), rec.analysisText, parts);
    SixParts(Title, NameLabel + rec.studentName, ParallelLabel + rec.studentParallel,
             DateLabel + date, GradeLabel + rec.grade, TrimEnd(rec.analysisText));
  }

  lemma SixParts(p0: string, p1: string, p2: string, p3: string, p4: string, p5: string)
    ensures [p0, p1, p2, p3, p4] + [p5] == [p0, p1, p2, p3, p4, p5]
  {
  }

  /** Generic form of the ends of `GenerateReportContent`. */
  lemma HeadThenRemainderEnds(r: string, head: string, banner: string, a: string)
    requires |banner| > 0 && StartsWith(head, banner) && !IsWhite(head[|head| - 1])
    requires r == head + AnalysisRemainder(a)
    ensures StartsWith(r, banner) && r[0] == banner[0] && EndsInWord(r)
  {
    assert StartsWith(r, banner) && r[0] == banner[0] by {
      assert r[..|banner|] == head[..|banner|];
      assert r[0] == head[..|banner|][0];
    }
    if AllWhite(a) {
      assert r == head;
    } else {
      var t := TrimEnd(a);
      assert EndsInWord(t);
      assert r == (head + Gap) + t;
      EndsInWordAppend(head + Gap, t);
    }
  }
}

=== FILE: types.dfy ===
/** The persisted entity of the application. */
module Types {

  /** One saved evaluation of a student's logo. `timestamp` is the
      millisecond clock reading taken when the record was created. */
  datatype EvaluationRecord = EvaluationRecord(
    id: string,
    studentName: string,
    studentParallel: string,
    timestamp: int,
    grade: string,
    analysisText: string)

  /** The caller-supplied part of a record: everything but `id` and
      `timestamp`, which the store assigns. */
  datatype Draft = Draft(
    studentName: string,
    studentParallel: string,
    grade: string,
    analysisText: string)

  /** True when some record in `records` carries `id`. */
  predicate HasId(records: seq<EvaluationRecord>, id: string) {
    exists i :: 0 <= i < |records| && records[i].id == id
  }

  /** No two records share an id. */
  predicate IdsDistinct(records: seq<EvaluationRecord>) {
    forall i, j :: 0 <= i < j < |records| ==> records[i].id != records[j].id
  }

  /** `a` is `b` with some elements removed, the rest kept in order. */
  ghost predicate IsSubsequence<T>(a: seq<T>, b: seq<T>)
    decreases |b|
  {
    || a == []
    || (&& b != []
        && (|| (a[0] == b[0] && IsSubsequence(a[1..], b[1..]))
            || IsSubsequence(a, b[1..])))
  }
}

=== FILE: wrappers.dfy ===
/** Failure-carrying values: the absent value of an optional JavaScript
    result (`undefined`/`null`) and the exception a call may throw. */
module Wrappers {

  datatype Option<+T> = None | Some(value: T)

  /** A value, or the message of the exception that replaced it. */
  datatype Result<+R, +E> = Success(value: R) | Failure(error: E) {

    predicate IsFailure() {
      Failure?
    }

    function PropagateFailure<U>(): Result<U, E>
      requires Failure?
    {
      Failure(error)
    }

    function Extract(): R
      requires Success?
    {
      value
    }
  }
}
